=== FILE: README.md ===
# Task prioritisation and adaptive time estimation — a Dafny model

The system helps a student plan coursework. Its command-line pipeline reads
an assignment brief through a language model and reads the reply as JSON.
It then rates the task's difficulty with a trained classifier and scores the
task's priority. That MCDM score (multi-criteria decision making) is a
weighted sum of urgency, impact and difficulty. A small web service predicts
how long each subtask will take. It uses a similarity-weighted mean of the
user's own completed tasks when some are similar enough (the "warm start").
Otherwise it reads a fixed table indexed by difficulty (the "cold start").
Completions are recorded in a document store, where later searches find them.

The model is written in pure functions over immutable data:

| module | file | models |
|---|---|---|
| `Wrappers` | wrappers.dfy | `Option` |
| `Text` | text.dfy | Python's `str.strip`, `startswith`, `split`, integer formatting |
| `Json` | json.dfy | request bodies and language-model replies as JSON values |
| `Mcdm` | mcdm.dfy | `src/mcdm_calculator.py`: urgency, impact, difficulty, final score, label |
| `Similarity` | similarity.dfy | cosine similarity of embedding vectors |
| `TaskStore` | task_store.dfy | the `tasks` and `training_logs` collections: save, complete, accuracy |
| `Search` | search.dfy | `find_similar_tasks`: filter, stable descending sort, top five |
| `Estimator` | estimator.dfy | warm-start weighted mean, cold-start table, `predict_time` |
| `Difficulty` | difficulty.dfy | `DifficultyPredictor`: loading and `predict_difficulty` |
| `Cli` | cli.dfy | `main.py`: `format_time`, fence stripping, subtask minutes, scoring pipeline |
| `Api` | api.dfy | `/predict`, `/predict-batch`, `/accuracy/<user_id>` |

Several things become explicit values:
- The document store is a sequence of records in natural order.
- The clock is an integer argument.
- The sentence embedder (`embed`), the vector norm (`norm`) and the trained
  classifier (`classify`) are function parameters.
- A Python exception is `None`, or a 500 response at the web layer.
- Python floats are exact reals.
- `round` is half-to-even and `int()` truncates toward zero.

## Model

| member | source | states |
|---|---|---|
| Mcdm.Urgency | src/mcdm_calculator.py:16-25 | the score is one of 20, 40, 60, 80, 100; it is 100 exactly when at most one day is left and 20 exactly when more than fourteen are left |
| Mcdm.UrgencyLosesTwentyPerThreshold | src/mcdm_calculator.py:16-25 | urgency is 100 minus 20 for each of the thresholds 1, 3, 7, 14 that the days left exceed |
| Mcdm.UrgencyNonIncreasing | src/mcdm_calculator.py:16-25 | more days left never gives a higher urgency |
| Mcdm.Trunc | src/mcdm_calculator.py:52 | `int()` truncates toward zero: the result lies within one below a non-negative argument and within one above a negative one |
| Mcdm.ImpactOfRaw | src/mcdm_calculator.py:41-52 | a raw impact always scores between 10 and 100; the linear band 0.2 to 0.5 scores between 10 and 24 |
| Mcdm.Impact | src/mcdm_calculator.py:39-52 | the impact score of any credits and weight lies in [10, 100] |
| Mcdm.ImpactMatchesScaled | src/mcdm_calculator.py:39-52 | the score depends only on the product credits × weight, compared with the thresholds scaled by 100 |
| Mcdm.ImpactScaledMonotone | src/mcdm_calculator.py:41-52 | a larger scaled product never scores lower |
| Mcdm.ImpactMonotone | src/mcdm_calculator.py:39-52 | a larger credits × weight never gives a lower impact |
| Mcdm.ImpactBandValues | src/mcdm_calculator.py:49-52 | in the linear band the score is half the product credits × weight, between 10 and 24 |
| Mcdm.DifficultyScore | src/mcdm_calculator.py:65 | the score is a multiple of 20 that recovers the rating; ratings 1–5 are exactly the scores 20–100 |
| Mcdm.FinalScore | src/mcdm_calculator.py:80 | the final score lies between the smallest and the largest component and equals a component that all three share |
| Mcdm.FinalScoreIsWeightedSum | src/mcdm_calculator.py:80 | the score is additive, with weights 0.5, 0.3 and 0.2 on urgency, impact and difficulty |
| Mcdm.FinalScoreRange | src/mcdm_calculator.py:68-80 | components in [0, 100] give a final score in [0, 100], and both ends are reached |
| Mcdm.Label | src/mcdm_calculator.py:93-98 | High exactly when the score is at least 70; Medium exactly on [40, 70); Low exactly below 40 |
| Mcdm.LabelMonotone | src/mcdm_calculator.py:93-98 | a higher score never gets a lower priority label |
| Mcdm.ValidateMcdm | src/mcdm_calculator.py:119-125 | the tuple chains the five functions, and a rating 1–5 yields a final score in [17, 100] |
| Mcdm.ValidateMcdmMaximum | src/mcdm_calculator.py:119-125 | one day left, 4 credits, weight 100 and rating 5 give the top score 100 with label High |
| Mcdm.DistantDeadlineNeverHigh | src/mcdm_calculator.py:16-25 | a task more than fourteen days away is never labelled High |
| Mcdm.ImminentDeadlineNeverLow | src/mcdm_calculator.py:16-25 | a task due within a day is never labelled Low |
| Similarity.Cosine | src/adaptive_time_estimator/adaptive_time_estimator.py:67-79 | 0 when either norm is 0; otherwise the result times the product of the norms is the dot product |
| Similarity.DotSymmetric | src/adaptive_time_estimator/adaptive_time_estimator.py:72 | the dot product is symmetric |
| Similarity.CosineSymmetric | src/adaptive_time_estimator/adaptive_time_estimator.py:67-79 | the similarity of a to b equals that of b to a |
| Similarity.CosineSelf | src/adaptive_time_estimator/adaptive_time_estimator.py:67-79 | a non-zero vector has similarity 1 with itself |
| Similarity.DotWithZero | src/adaptive_time_estimator/adaptive_time_estimator.py:72 | the dot product with a zero vector is 0 |
| Similarity.CosineWithZeroVector | src/adaptive_time_estimator/adaptive_time_estimator.py:76-77 | a zero vector has similarity 0 with everything and never divides by zero |
| TaskStore.SaveTask | src/adaptive_time_estimator/adaptive_time_estimator.py:167-191 | one record is appended per prediction, in order; earlier records are kept; each new record is scheduled, has no actual time, carries the category `general` and the system estimate as user estimate when the prediction has no such entry, and is stamped with its own clock reading |
| TaskStore.FirstAwaiting | src/adaptive_time_estimator/adaptive_time_estimator.py:196-201 | the first record of that user and description that is still scheduled, or none when no record is |
| TaskStore.MarkComplete | src/adaptive_time_estimator/adaptive_time_estimator.py:194-209 | only the first matching scheduled record changes: it becomes completed with the actual time and completion date, and nothing else changes; with no match the store is unchanged |
| TaskStore.MarkCompleteMakesDonor | src/adaptive_time_estimator/adaptive_time_estimator.py:89-93 | the completed record is a donor for that user's later similarity searches |
| TaskStore.MarkCompleteKeepsDonors | src/adaptive_time_estimator/adaptive_time_estimator.py:194-209 | completion never removes a donor of any user |
| TaskStore.MarkCompleteTwice | src/adaptive_time_estimator/adaptive_time_estimator.py:196-201 | a repeated completion leaves the first completed record and its actual time alone, and changes nothing when that record was the only match |
| TaskStore.LatestLog | src/adaptive_time_estimator/adaptive_time_estimator.py:214-217 | none exactly when the user has no log; otherwise a log of that user with the greatest training date |
| TaskStore.GetAccuracy | src/adaptive_time_estimator/adaptive_time_estimator.py:212-226 | none exactly when the user has no log; otherwise the MAE, the five-minute accuracy and the training size of a latest log of that user |
| Search.CandidatesMembership | src/adaptive_time_estimator/adaptive_time_estimator.py:89-108 | a match is a candidate exactly when it comes from a completed record of the user with an actual time whose similarity reaches the threshold |
| Search.CandidatesAppendNonDonors | src/adaptive_time_estimator/adaptive_time_estimator.py:89-93 | records that are not donors of the user do not change the candidates |
| Search.NonDonorsNoCandidates | src/adaptive_time_estimator/adaptive_time_estimator.py:95-96 | without donors there are no candidates |
| Search.Insert | src/adaptive_time_estimator/adaptive_time_estimator.py:110 | insertion adds exactly the new match to the multiset |
| Search.InsertSorted | src/adaptive_time_estimator/adaptive_time_estimator.py:110 | insertion keeps a list sorted by descending similarity |
| Search.SortBySimilarity | src/adaptive_time_estimator/adaptive_time_estimator.py:110 | the result is a permutation of the input, sorted by descending similarity |
| Search.InsertStable | src/adaptive_time_estimator/adaptive_time_estimator.py:110 | for every similarity value, insertion puts the new match before the matches with that value |
| Search.SortStable | src/adaptive_time_estimator/adaptive_time_estimator.py:110 | the sort is stable: matches with equal similarity keep their store order |
| Search.WithSimilarityPrefix | src/adaptive_time_estimator/adaptive_time_estimator.py:111 | the matches with a given similarity in a prefix come first among those in the whole list |
| Search.FindSimilar | src/adaptive_time_estimator/adaptive_time_estimator.py:82-111 | at most five results, sorted by descending similarity, each at least the threshold; empty when the user has no donor |
| Search.FindSimilarSound | src/adaptive_time_estimator/adaptive_time_estimator.py:99-108 | each result comes from a donor record of the user, with that record's description, actual time, category and similarity |
| Search.FindSimilarKeepsBest | src/adaptive_time_estimator/adaptive_time_estimator.py:110-111 | the result is the first min(5, candidates) of the sorted candidates, a sub-multiset of them, and no omitted candidate is more similar than a kept one |
| Search.PrefixKeepsBest | src/adaptive_time_estimator/adaptive_time_estimator.py:110-111 | the first min(5, n) entries of any sorted permutation of the candidates are as many as that, a sub-multiset of them, and at least as similar as every candidate left out |
| Search.FindSimilarStable | src/adaptive_time_estimator/adaptive_time_estimator.py:110-111 | among equally similar candidates, those kept are the earliest in store order |
| Search.FindSimilarIgnoresScheduled | src/adaptive_time_estimator/adaptive_time_estimator.py:89-93 | adding scheduled records does not change the search result |
| Estimator.WeightedSumIsMean | src/adaptive_time_estimator/adaptive_time_estimator.py:119-123 | the sum of normalised weights times times equals the similarity-time products over the total similarity |
| Estimator.RoundHalfEven | src/adaptive_time_estimator/adaptive_time_estimator.py:125 | the result is within one half of the argument, strictly so off a tie, and even on a tie |
| Estimator.RoundBetween | src/adaptive_time_estimator/adaptive_time_estimator.py:125 | rounding keeps a value between two integer bounds |
| Estimator.RoundInteger | src/adaptive_time_estimator/adaptive_time_estimator.py:125 | rounding fixes integers |
| Estimator.TotalSimilarityPositive | src/adaptive_time_estimator/adaptive_time_estimator.py:119 | positive similarities have a positive total |
| Estimator.ProductsBetween | src/adaptive_time_estimator/adaptive_time_estimator.py:120-123 | the products lie between the total similarity times the least and times the greatest time |
| Estimator.WeightedMeanBetween | src/adaptive_time_estimator/adaptive_time_estimator.py:119-123 | dividing by the weights' own total keeps the weighted sum between any bounds on the times |
| Estimator.WeightedSumBetween | src/adaptive_time_estimator/adaptive_time_estimator.py:119-123 | the weighted mean lies between any bounds of the actual times |
| Estimator.WarmStartPrediction | src/adaptive_time_estimator/adaptive_time_estimator.py:114-125 | none exactly for no matches; otherwise Python's `round` of the similarity-weighted mean Σ similarity·time / Σ similarity; with positive similarities the prediction lies between the least and the greatest actual time |
| Estimator.WarmStartPredictionUnanimous | src/adaptive_time_estimator/adaptive_time_estimator.py:114-125 | matches that all took the same time predict that time |
| Estimator.WarmStartPredictionExample | src/adaptive_time_estimator/adaptive_time_estimator.py:114-125 | similarities 0.8 and 0.4 with times 10 and 20 predict 13 |
| Estimator.ColdStartPrediction | src/adaptive_time_estimator/adaptive_time_estimator.py:128-130 | levels 1–5 read the table 10, 15, 20, 30, 45; every other key gives 20; the result is in [10, 45] |
| Estimator.ColdStartPredictionIncreasing | src/adaptive_time_estimator/adaptive_time_estimator.py:55-57 | a harder level always predicts more minutes |
| Estimator.ColdStartPredictionDefaultIsMiddle | src/adaptive_time_estimator/adaptive_time_estimator.py:130 | an unknown key predicts the same as level 3 |
| Estimator.HitsArePositive | src/adaptive_time_estimator/adaptive_time_estimator.py:53 | matches at the default threshold have positive similarities, so their total is never zero |
| Estimator.PredictTime | src/adaptive_time_estimator/adaptive_time_estimator.py:133-164 | warm start exactly when similar tasks were found, HIGH confidence exactly for warm start, at most five similar tasks; cold start uses the table; a warm prediction is the warm-start prediction of the reported similar tasks, so it lies between their least and greatest actual time |
| Estimator.PredictTimeUsesSearch | src/adaptive_time_estimator/adaptive_time_estimator.py:145-164 | the similar tasks are the default-threshold search result; a user without donors gets the cold-start table with no similar tasks |
| Difficulty.Load | src/dynamic_task_prioritization/difficulty_predictor.py:19-48 | the predictor is loaded exactly when the model file is a pickled dictionary with both the embedder and the classifier entries |
| Difficulty.ClassToScore | src/dynamic_task_prioritization/difficulty_predictor.py:54-58 | classes 0, 1, 2 map to 1, 3, 5, and any other class maps to the fallback |
| Difficulty.PredictDifficulty | src/dynamic_task_prioritization/difficulty_predictor.py:69-119 | the fallback when unloaded, for a blank description or when classification fails; otherwise the class rating, or the fallback when fewer than three probabilities come back |
| Difficulty.PredictDifficultyDefaultRange | src/dynamic_task_prioritization/difficulty_predictor.py:69-119 | with the default fallback the rating is 1, 3 or 5, and 3 when unloaded |
| Difficulty.PredictDifficultyIgnoresProbabilities | src/dynamic_task_prioritization/difficulty_predictor.py:89-94 | the rating depends on the predicted class, not on the probability values |
| Difficulty.IncompleteModelFallsBack | src/dynamic_task_prioritization/difficulty_predictor.py:44-48 | a model file without the classifier entry always yields the fallback |
| Text.Strip | main.py:217 | the result has no surrounding whitespace, is empty exactly for all-space input, and leaves already stripped text alone |
| Text.LeadingSpace | main.py:217 | the length of the leading whitespace run: all of it is whitespace and the next character is not |
| Text.StripIsPiece | main.py:217 | the stripped text is the slice of the input right after its leading whitespace, and everything after that slice is whitespace, so only surrounding whitespace is removed |
| Text.TrimmedEmpty | main.py:217 | trimming both ends leaves nothing exactly when the text is all whitespace |
| Text.StripIdempotent | main.py:217 | stripping twice is stripping once |
| Text.Before | main.py:219-221 | `split(p)[0]`: the prefix of the text that ends at the first occurrence of the separator (no occurrence starts inside it, one starts right after it when it is shorter), or the whole text |
| Text.SecondPiece | main.py:219-221 | `split(p)[1]`: the slice that starts right after the first occurrence of the separator and ends where the next occurrence begins, or at the end of the text |
| Text.NatStringRoundTrip | main.py:39-46 | the decimal numeral of a natural number parses back to it |
| Cli.FormatTime | main.py:21-46 | zero is written "0 minutes" |
| Cli.FormatTimeNegative | main.py:34-46 | with floor division, a negative count is written as its remainder modulo 60 minutes |
| Cli.FormatTimeRenders | main.py:31-46 | a non-negative count is its whole hours times 60 plus its leftover minutes below 60, and is written as that pair, zero included |
| Cli.RenderWords | main.py:37-46 | the words are hours and unit, then minutes and unit, and either part is absent when it is zero |
| Cli.RenderSingular | main.py:37-46 | "hour" and "minute" appear exactly for a count of one, "hours" exactly for more than one |
| Cli.FormatTimeSingular | main.py:21-46 | for a positive count, "hour" appears exactly for one full hour, "hours" for more, "minute" exactly for one leftover minute |
| Cli.RenderRoundTrip | main.py:37-46 | for fewer than 60 minutes, reading the rendered hours and minutes back gives 60 × hours + minutes |
| Cli.FormatTimeRoundTrip | main.py:21-46 | reading a formatted non-negative duration back gives the same number of minutes |
| Cli.StripFences | main.py:217-221 | an unfenced reply is only stripped; the result is always stripped; a fenced reply yields text without a fence |
| Cli.StripFencesFenced | main.py:217-221 | a reply that starts with "```json" yields the json-fenced body, and one that starts with a bare fence otherwise yields the bare-fenced body |
| Cli.FencedBody | main.py:219-221 | the text after the opener, cut at the next opener and then at the next bare fence, stripped; it has no surrounding whitespace and no fence inside |
| Cli.FencedBodyIsCut | main.py:219-221 | the body is the text after the opener, cut at the next opener and then at the next bare fence, and stripped; for a bare opener the two cuts are one |
| Cli.JsonFenceOpensFence | main.py:218-220 | a json fence also starts a bare fence, so the json branch must be checked first |
| Cli.StripFencesJsonBlock | main.py:218-219 | a reply `"```json" + body + "```" + tail` yields the stripped body, when the body holds no backtick and the tail is empty or neither starts with a backtick nor ends in whitespace |
| Cli.StripFencesBareBlock | main.py:220-221 | a reply `"```" + body + "```" + tail` yields the stripped body, when the body holds no backtick and does not start with `json`, and the tail is empty or does not end in whitespace |
| Cli.SubtaskMinutes | main.py:242-249 | a subtask that is not an object contributes 0 minutes |
| Cli.HoursToMinutes | main.py:247-249 | integer hours, or booleans, convert to 60 minutes per hour; other values fail |
| Cli.SubtaskMinutesChoice | main.py:244-249 | integer minutes are taken as given; hours are used only when minutes are absent or null; no estimate counts 0; string minutes fail |
| Cli.TotalSubtaskMinutes | main.py:240-250 | the loop computes the sum, and fails exactly when some subtask's estimate fails |
| Cli.SumMinutesFails | main.py:240-250 | one failing subtask fails the whole sum |
| Cli.SumMinutesSkipsPlain | main.py:253-256 | plain-string subtasks add nothing, wherever they appear |
| Cli.SumMinutesAppend | main.py:240-250 | the total over two lists is the sum of their totals, and fails when either fails |
| Cli.AnalyzeTask | main.py:275-286 | the scores are the MCDM calculator's on the rating the predictor gives with fallback 3, for any credits and weight; the difficulty score is 20, 60 or 100 and the final score is in [17, 100]; an unloaded model scores difficulty 60 |
| Api.KeyOf | src/adaptive_time_estimator/adaptive_time_estimator.py:128-130 | integers are their own level and booleans are levels 1 and 0, strings and null are other keys, and arrays and objects cannot be keys |
| Api.PredictValues | src/adaptive_time_estimator/api.py:90-94 | a string subtask and user give exactly the estimator's prediction; a non-string user sees no history; an unhashable difficulty fails exactly when no similar task is found, and otherwise gives the warm-start prediction |
| Api.PredictValuesUnhashable | src/adaptive_time_estimator/adaptive_time_estimator.py:128-130 | with an unhashable difficulty, a success means a string subtask and user, and the prediction is the one for any key: the warm-start one |
| Api.Predict | src/adaptive_time_estimator/api.py:78-102 | a 400 exactly when subtask, user id or difficulty is missing or falsy, with the message of the first such field; otherwise the prediction, or a 500 when it fails or the body is not an object; no other status is returned |
| Api.PredictWellFormed | src/adaptive_time_estimator/api.py:82-94 | a well-formed request is answered with exactly the estimator's prediction |
| Api.PredictStrings | src/adaptive_time_estimator/api.py:90-94 | string subtask and user with an integer difficulty get the estimator's prediction at that level |
| Api.PredictAccepts | src/adaptive_time_estimator/api.py:82-102 | once all three fields are present and truthy, the answer is the prediction, or a 500 when it fails |
| Api.PredictZeroDifficultyIsMissing | src/adaptive_time_estimator/api.py:86-87 | difficulty 0 is rejected as missing |
| Api.Iterate | src/adaptive_time_estimator/api.py:142 | arrays yield their items, strings their characters, and other values cannot be iterated |
| Api.Average | src/adaptive_time_estimator/api.py:153 | the average times the count is the total, and an empty batch averages 0 |
| Api.BatchInput | src/adaptive_time_estimator/api.py:134-137 | the input exists exactly for an object body with an object `main_task` and iterable `subtasks`; the difficulty defaults to 3 |
| Api.PredictBatch | src/adaptive_time_estimator/api.py:131-158 | success exactly when every subtask's prediction succeeds; the k-th item is numbered k + 1, carries its subtask and its prediction; the total, count and average agree; every failure is a 500 |
| Api.AnswersSnoc | src/adaptive_time_estimator/api.py:141-147 | appending the next subtask's answer keeps every earlier answer in place and adds that prediction's time to the running total |
| Api.PredictEach | src/adaptive_time_estimator/api.py:141-147 | the loop succeeds exactly when every prediction does; it yields one item per subtask, numbered from 1 and carrying that subtask and its prediction, and the running total is the sum of the predicted times |
| Api.BatchDefaultDifficulty | src/adaptive_time_estimator/api.py:137 | without history, the default difficulty predicts 20 minutes at LOW confidence |
| Api.AccuracyEndpoint | src/adaptive_time_estimator/api.py:198-221 | 404 with its message exactly when the user has no training log; otherwise 200 with the latest accuracy figures |

## Left out

- External services are not modelled: MongoDB, pickle loading, the sentence transformer, the XGBoost classifier and the language-model client. The store is a sequence, and the rest are parameters or abstract data.
- Console output is not modelled: the `print` reports, the confidence percentage and the `difficulty_map` label. None of them affects a returned value.
- Clocks are parameters. The response `timestamp` and `explanation` fields, `created_date` and `time_allocation_date` are not modelled.
- The routes `/`, `/health`, `/complete` and `/save-tasks` are thin wrappers and are not modelled. `/complete` forwards to `TaskStore.MarkComplete`, which takes a string subtask and user and an integer actual time. The handler passes `data['subtask']`, `data['user_id']` and `data['actual_time']` of any JSON type. `/save-tasks` forwards to `TaskStore.SaveTask`.
- TaskStore.SaveTask: takes well-typed predictions that carry every required key (`subtask_text`, `subtask_number`, `method`, `predicted_time`, `confidence`). In the code, a missing key raises `KeyError` partway through the loop: the records inserted before it stay in the store and `/save-tasks` answers 500. The model has no such partial write. An optional `category` or `user_estimate` is either absent, and then defaulted, or a value. A key that is present with value null is stored as null in the code, and the model cannot express that.
- The interactive prompts, the PDF handling and the JSON decoding of the reply in `main.py` are not modelled. `Cli.AnalyzeTask` takes any credits and weight, as the automated mode does (main.py:156-157).
- Floats are exact reals. Floating-point rounding is not modelled: near a threshold, a float value such as `credits * (weight / 100)` can land on the other side.
- JSON numbers with a fraction are not modelled, for example a difficulty of `3.0` or fractional estimated minutes.
- Search.FindSimilar: requires every donor vector of the user to have the query's dimension. NumPy raises on a mismatch, and the model does not follow that error path.
- Api.PredictValues: a subtask that is not a string is treated as an embedding failure, and so as a 500.
- Api.PredictValues: stored user ids are modelled as strings, so a non-string request user id sees an empty history. In the code, `/save-tasks` stores `user_id` of any JSON type, and `find_similar_tasks` puts the request's `user_id` into the MongoDB filter unchanged. So a number can match records stored under that number, and an operator object such as `{"$ne": null}` matches every user's history. The per-user scoping of `Search.FindSimilarSound` holds only under this restriction.
- Api.Iterate: an object-valued `subtasks` is a 500 here. Python would iterate its keys.
- Estimator.WarmStartPrediction: requires a non-zero total similarity, because `warm_start_prediction` divides by it. `predict_time` always meets this, since every hit reaches the 0.65 threshold.
- "First" record (mark_complete) and "latest" log (get_accuracy) follow store order. Ties in training date go to the earliest stored log, standing in for MongoDB's unspecified natural order.
- Cli.FormatTime: its own contract states only the zero case. Its wording is pinned down by `Cli.RenderWords`, `Cli.FormatTimeSingular` and the round trip `Cli.FormatTimeRoundTrip`.
- Difficulty.PredictDifficulty: the confidence `max(probabilities) * 100` is computed and printed but never affects the result. There is no threshold and no fallback to a suggested difficulty. The only probability effect is the report's read of three probabilities, which fails on fewer than three.

=== FILE: api.dfy ===
/**
 * The estimator's web handlers as functions from a decoded request body
 * (and the stored state) to a response: the single prediction with its
 * input validation, the batch prediction with its totals, and the accuracy
 * lookup. Any exception a handler catches becomes `ServerError` (HTTP 500);
 * its message is the exception text and is not modelled.
 */
module Api {
  import opened Wrappers
  import opened Similarity
  import opened TaskStore
  import opened Search
  import opened Estimator
  import Json

  datatype Response<T> = Ok(body: T) | BadRequest(message: string) | NotFound(message: string) | ServerError {
    function Status(): int {
      match this
      case Ok(_) => 200
      case BadRequest(_) => 400
      case NotFound(_) => 404
      case ServerError => 500
    }
  }

  /** Every stored vector and every embedding share one dimension. */
  ghost predicate SameDimension(store: seq<TaskRecord>, embed: string -> Vector, dim: nat) {
    && (forall t :: |embed(t)| == dim)
    && (forall i :: 0 <= i < |store| ==> |store[i].subTask.vector| == dim)
  }

  lemma SameDimensionDonors(store: seq<TaskRecord>, embed: string -> Vector, dim: nat, user: string, text: string)
    requires SameDimension(store, embed, dim)
    ensures DonorsHaveDim(store, user, |embed(text)|)
  {
  }

  /**
   * A request's difficulty as a key of the difficulty table: integers (and
   * booleans, which Python hashes as 1 and 0) are levels, strings and null
   * are other keys, and arrays and objects are unhashable (`None`).
   */
  function KeyOf(v: Json.Value): (k: Option<DifficultyKey>)
    ensures k.None? <==> v.JArr? || v.JObj?
    ensures v.JInt? ==> k == Some(Level(v.i))
    ensures v.JBool? ==> k == Some(Level(if v.b then 1 else 0))
    ensures v.JStr? || v.JNull? ==> k == Some(OtherKey)
  {
    match v
    case JInt(i) => Some(Level(i))
    case JBool(b) => Some(Level(if b then 1 else 0))
    case JStr(_) => Some(OtherKey)
    case JNull => Some(OtherKey)
    case _ => None
  }

  /**
   * `estimator.predict_time(subtask, user_id, difficulty)` on request values.
   * A subtask that is not a string cannot be embedded; a user id that is not
   * a string matches no stored record; an unhashable difficulty fails only
   * when the cold-start table is consulted. `None` is the exception.
   */
  function PredictValues(
    store: seq<TaskRecord>, subtask: Json.Value, user: Json.Value, difficulty: Json.Value,
    embed: string -> Vector, norm: Vector -> real, dim: nat)
    : (p: Option<Prediction>)
    requires SameDimension(store, embed, dim)
    ensures p.Some? ==> subtask.JStr?
    ensures subtask.JStr? && user.JStr? && KeyOf(difficulty).Some? ==>
      p == Some(PredictTime(store, subtask.s, user.s, KeyOf(difficulty).value, embed, norm))
    ensures subtask.JStr? && !user.JStr? && KeyOf(difficulty).Some? ==>
      p == Some(Prediction(ColdStart, ColdStartPrediction(KeyOf(difficulty).value), Low, []))
    ensures subtask.JStr? && KeyOf(difficulty).None? ==>
      (p.Some? <==> user.JStr? && FindSimilar(store, subtask.s, user.s, DefaultThreshold, embed, norm) != [])
    ensures p.Some? && KeyOf(difficulty).None? ==> p.value.predictionMethod == WarmStart
  {
    if !subtask.JStr? then None
    else
      var text := subtask.s;
      SameDimensionDonors(store, embed, dim, if user.JStr? then user.s else "", text);
      var history := if user.JStr? then store else [];
      var userId := if user.JStr? then user.s else "";
      match KeyOf(difficulty)
      case Some(k) =>
        PredictTimeUsesSearch(history, text, userId, k, embed, norm);
        Some(PredictTime(history, text, userId, k, embed, norm))
      case None =>
        var p := PredictTime(history, text, userId, OtherKey, embed, norm);
        if p.predictionMethod == WarmStart then Some(p) else None
  }

  /** An unhashable difficulty is never read on the warm-start path, so a success is the prediction for any key. */
  lemma PredictValuesUnhashable(
    store: seq<TaskRecord>, subtask: Json.Value, user: Json.Value, difficulty: Json.Value,
    embed: string -> Vector, norm: Vector -> real, dim: nat)
    requires SameDimension(store, embed, dim)
    requires KeyOf(difficulty).None?
    ensures var p := PredictValues(store, subtask, user, difficulty, embed, norm, dim);
      p.Some? ==> subtask.JStr? && user.JStr? && p.value == PredictTime(store, subtask.s, user.s, OtherKey, embed, norm)
  {
  }

  // ---------------------------------------------------------------------
  // POST /predict
  // ---------------------------------------------------------------------

  const MissingSubtask: string := "Missing 'subtask' field"
  const MissingUser: string := "Missing 'user_id' field"
  const MissingDifficulty: string := "Missing 'difficulty' field"

  /**
   * `predict`: 400 for the first of `subtask`, `user_id`, `difficulty`
   * that is absent or falsy (so a difficulty of 0 is missing), otherwise
   * the prediction; a body that is not a JSON object is a 500.
   */
  function Predict(
    request: Json.Value, store: seq<TaskRecord>, embed: string -> Vector, norm: Vector -> real, dim: nat)
    : (r: Response<Prediction>)
    requires SameDimension(store, embed, dim)
    ensures !request.JObj? ==> r == ServerError
    ensures !r.Ok? && !r.BadRequest? ==> r == ServerError
    ensures request.JObj? ==>
      var f := request.fields;
      && (r.BadRequest? <==>
            !Json.Truthy(Json.Get(f, "subtask")) || !Json.Truthy(Json.Get(f, "user_id"))
            || !Json.Truthy(Json.Get(f, "difficulty")))
      && (!Json.Truthy(Json.Get(f, "subtask")) ==> r == BadRequest(MissingSubtask))
      && (Json.Truthy(Json.Get(f, "subtask")) && !Json.Truthy(Json.Get(f, "user_id")) ==> r == BadRequest(MissingUser))
      && ((Json.Truthy(Json.Get(f, "subtask")) && Json.Truthy(Json.Get(f, "user_id"))
            && !Json.Truthy(Json.Get(f, "difficulty"))) ==> r == BadRequest(MissingDifficulty))
      && (!r.BadRequest? ==>
            (r.Ok? <==> PredictValues(store, f["subtask"], f["user_id"], f["difficulty"], embed, norm, dim).Some?))
      && (r.Ok? ==> Some(r.body) == PredictValues(store, f["subtask"], f["user_id"], f["difficulty"], embed, norm, dim))
  {
    if !request.JObj? then ServerError
    else
      var f := request.fields;
      if !Json.Truthy(Json.Get(f, "subtask")) then BadRequest(MissingSubtask)
      else if !Json.Truthy(Json.Get(f, "user_id")) then BadRequest(MissingUser)
      else if !Json.Truthy(Json.Get(f, "difficulty")) then BadRequest(MissingDifficulty)
      else
        match PredictValues(store, f["subtask"], f["user_id"], f["difficulty"], embed, norm, dim)
        case Some(p) => Ok(p)
        case None => ServerError
  }

  /** A well-formed request is answered with exactly the estimator's prediction. */
  lemma PredictWellFormed(
    request: Json.Value, store: seq<TaskRecord>, embed: string -> Vector, norm: Vector -> real, dim: nat,
    subtask: string, user: string, level: int)
    requires SameDimension(store, embed, dim)
    requires request == Json.JObj(map["subtask" := Json.JStr(subtask), "user_id" := Json.JStr(user), "difficulty" := Json.JInt(level)])
    requires |subtask| > 0 && |user| > 0 && level != 0
    ensures DonorsHaveDim(store, user, |embed(subtask)|)
    ensures Predict(request, store, embed, norm, dim) == Ok(PredictTime(store, subtask, user, Level(level), embed, norm))
  {
    var f := request.fields;
    assert f["subtask"] == Json.JStr(subtask) && f["user_id"] == Json.JStr(user) && f["difficulty"] == Json.JInt(level);
    PredictStrings(store, subtask, user, level, embed, norm, dim);
    PredictAccepts(request, store, embed, norm, dim);
  }

  /** String subtask and user with an integer difficulty: the estimator's prediction at that level. */
  lemma PredictStrings(
    store: seq<TaskRecord>, subtask: string, user: string, level: int,
    embed: string -> Vector, norm: Vector -> real, dim: nat)
    requires SameDimension(store, embed, dim)
    ensures DonorsHaveDim(store, user, |embed(subtask)|)
    ensures PredictValues(store, Json.JStr(subtask), Json.JStr(user), Json.JInt(level), embed, norm, dim)
      == Some(PredictTime(store, subtask, user, Level(level), embed, norm))
  {
    SameDimensionDonors(store, embed, dim, user, subtask);
  }

  /** A body whose three fields are all present and truthy is answered by the prediction, or a 500. */
  lemma PredictAccepts(
    request: Json.Value, store: seq<TaskRecord>, embed: string -> Vector, norm: Vector -> real, dim: nat)
    requires SameDimension(store, embed, dim)
    requires request.JObj?
    requires Json.Truthy(Json.Get(request.fields, "subtask")) && Json.Truthy(Json.Get(request.fields, "user_id"))
      && Json.Truthy(Json.Get(request.fields, "difficulty"))
    ensures var f := request.fields;
      var p := PredictValues(store, f["subtask"], f["user_id"], f["difficulty"], embed, norm, dim);
      Predict(request, store, embed, norm, dim) == if p.Some? then Ok(p.value) else ServerError
  {
  }

  /** A difficulty of 0 is reported as missing, even though 0 is a value. */
  lemma PredictZeroDifficultyIsMissing(
    store: seq<TaskRecord>, embed: string -> Vector, norm: Vector -> real, dim: nat, subtask: string, user: string)
    requires SameDimension(store, embed, dim)
    requires |subtask| > 0 && |user| > 0
    ensures Predict(Json.JObj(map["subtask" := Json.JStr(subtask), "user_id" := Json.JStr(user), "difficulty" := Json.JInt(0)]),
      store, embed, norm, dim).Status() == 400
  {
    var f := map["subtask" := Json.JStr(subtask), "user_id" := Json.JStr(user), "difficulty" := Json.JInt(0)];
    assert f["subtask"] == Json.JStr(subtask) && f["user_id"] == Json.JStr(user) && f["difficulty"] == Json.JInt(0);
  }

  // ---------------------------------------------------------------------
  // POST /predict-batch
  // ---------------------------------------------------------------------

  /** One entry of the batch response: the prediction plus its 1-based position and its text. */
  datatype BatchItem = BatchItem(prediction: Prediction, subtaskNumber: int, subtaskText: Json.Value)

  datatype BatchResult = BatchResult(predictions: seq<BatchItem>, totalTime: int, taskCount: int, averageTime: real)

  const DefaultDifficulty: int := 3

  /**
   * The values a `for` loop visits: the items of an array, the
   * one-character strings of a string; `None` for values Python cannot
   * iterate here (null, numbers, booleans, and objects, which are not modelled).
   */
  function Iterate(v: Json.Value): (items: Option<seq<Json.Value>>)
    ensures v.JArr? ==> items == Some(v.items)
    ensures v.JStr? ==> (items.Some? && |items.value| == |v.s|
      && forall k :: 0 <= k < |v.s| ==> items.value[k] == Json.JStr([v.s[k]]))
    ensures !v.JArr? && !v.JStr? ==> items.None?
  {
    match v
    case JArr(xs) => Some(xs)
    case JStr(s) => Some(seq(|s|, k requires 0 <= k < |s| => Json.JStr([s[k]])))
    case _ => None
  }

  /** The sum of the predicted times. */
  function TotalTime(items: seq<BatchItem>): int {
    if |items| == 0 then 0 else TotalTime(items[..|items| - 1]) + items[|items| - 1].prediction.predictedTime
  }

  /** `total_time / len(subtasks) if subtasks else 0`. */
  function Average(total: int, count: nat): (a: real)
    ensures count > 0 ==> a * count as real == total as real
    ensures count == 0 ==> a == 0.0
  {
    if count == 0 then 0.0 else total as real / count as real
  }

  /** The batch input: user id, the main task's difficulty (3 by default) and the subtasks to visit. */
  function BatchInput(request: Json.Value): (input: Option<(Json.Value, Json.Value, seq<Json.Value>)>)
    ensures input.Some? <==>
      && request.JObj?
      && Json.Get(request.fields, "main_task").JObj?
      && Iterate(Json.GetOr(request.fields, "subtasks", Json.JArr([]))).Some?
    ensures input.Some? ==>
      var mainTask := Json.Get(request.fields, "main_task").fields;
      && input.value.0 == Json.Get(request.fields, "user_id")
      && input.value.1 == Json.GetOr(mainTask, "difficulty", Json.JInt(DefaultDifficulty))
      && input.value.2 == Iterate(Json.GetOr(request.fields, "subtasks", Json.JArr([]))).value
  {
    if !request.JObj? then None
    else
      var f := request.fields;
      var mainTask := Json.Get(f, "main_task");
      if !mainTask.JObj? then None
      else match Iterate(Json.GetOr(f, "subtasks", Json.JArr([])))
        case None => None
        case Some(subtasks) =>
          Some((Json.Get(f, "user_id"), Json.GetOr(mainTask.fields, "difficulty", Json.JInt(DefaultDifficulty)), subtasks))
  }

  /** `item` answers the subtask at 0-based position `k` with the estimator's prediction `p`. */
  predicate Answers(item: BatchItem, k: int, subtask: Json.Value, p: Option<Prediction>) {
    && item.subtaskNumber == k + 1
    && item.subtaskText == subtask
    && Some(item.prediction) == p
  }

  /** Appending the answer for the next subtask keeps every earlier answer and adds its time to the total. */
  lemma AnswersSnoc(
    store: seq<TaskRecord>, subtasks: seq<Json.Value>, user: Json.Value, difficulty: Json.Value,
    embed: string -> Vector, norm: Vector -> real, dim: nat, items: seq<BatchItem>, item: BatchItem)
    requires SameDimension(store, embed, dim)
    requires |items| < |subtasks|
    requires forall j :: 0 <= j < |items| ==>
      Answers(items[j], j, subtasks[j], PredictValues(store, subtasks[j], user, difficulty, embed, norm, dim))
    requires Answers(item, |items|, subtasks[|items|], PredictValues(store, subtasks[|items|], user, difficulty, embed, norm, dim))
    ensures forall j :: 0 <= j < |items| + 1 ==>
      Answers((items + [item])[j], j, subtasks[j], PredictValues(store, subtasks[j], user, difficulty, embed, norm, dim))
    ensures TotalTime(items + [item]) == TotalTime(items) + item.prediction.predictedTime
  {
    var next := items + [item];
    forall j | 0 <= j < |items| + 1
      ensures Answers(next[j], j, subtasks[j], PredictValues(store, subtasks[j], user, difficulty, embed, norm, dim))
    {
      if j < |items| {
        assert next[j] == items[j];
      }
    }
    assert next[..|items|] == items;
  }

  /**
   * The loop of `predict_batch`: one prediction per subtask, numbered from
   * 1 in input order, with the running total of the predicted times; the
   * first failing prediction aborts it (`None`).
   */
  method PredictEach(
    store: seq<TaskRecord>, subtasks: seq<Json.Value>, user: Json.Value, difficulty: Json.Value,
    embed: string -> Vector, norm: Vector -> real, dim: nat)
    returns (result: Option<(seq<BatchItem>, int)>)
    requires SameDimension(store, embed, dim)
    ensures result.Some? <==>
      forall k :: 0 <= k < |subtasks| ==> PredictValues(store, subtasks[k], user, difficulty, embed, norm, dim).Some?
    ensures result.Some? ==>
      var (items, total) := result.value;
      && |items| == |subtasks|
      && total == TotalTime(items)
      && forall k :: 0 <= k < |subtasks| ==>
           Answers(items[k], k, subtasks[k], PredictValues(store, subtasks[k], user, difficulty, embed, norm, dim))
  {
    var items: seq<BatchItem> := [];
    var total := 0;
    var k := 0;
    while k < |subtasks|
      invariant 0 <= k <= |subtasks|
      invariant |items| == k
      invariant total == TotalTime(items)
      invariant forall j :: 0 <= j < k ==>
        Answers(items[j], j, subtasks[j], PredictValues(store, subtasks[j], user, difficulty, embed, norm, dim))
    {
      var p := PredictValues(store, subtasks[k], user, difficulty, embed, norm, dim);
      if p.None? {
        return None;
      }
      var item := BatchItem(p.value, k + 1, subtasks[k]);
      AnswersSnoc(store, subtasks, user, difficulty, embed, norm, dim, items, item);
      items := items + [item];
      total := total + p.value.predictedTime;
      k := k + 1;
    }
    return Some((items, total));
  }

  /**
   * `predict_batch`: the predictions of all subtasks with their total, count
   * and mean. Any failing prediction, a missing or non-object `main_task`,
   * or `subtasks` that cannot be iterated turn the whole request into a 500.
   */
  method PredictBatch(
    request: Json.Value, store: seq<TaskRecord>, embed: string -> Vector, norm: Vector -> real, dim: nat)
    returns (r: Response<BatchResult>)
    requires SameDimension(store, embed, dim)
    ensures BatchInput(request).None? ==> r == ServerError
    ensures !r.Ok? ==> r == ServerError
    ensures BatchInput(request).Some? ==>
      var (user, difficulty, subtasks) := BatchInput(request).value;
      && (r.Ok? <==> forall k :: 0 <= k < |subtasks| ==> PredictValues(store, subtasks[k], user, difficulty, embed, norm, dim).Some?)
      && (r.Ok? ==>
            var res := r.body;
            && |res.predictions| == |subtasks|
            && res.taskCount == |subtasks|
            && (forall k :: 0 <= k < |subtasks| ==>
                  Answers(res.predictions[k], k, subtasks[k], PredictValues(store, subtasks[k], user, difficulty, embed, norm, dim)))
            && res.totalTime == TotalTime(res.predictions)
            && res.averageTime == Average(res.totalTime, |subtasks|))
  {
    var input := BatchInput(request);
    if input.None? {
      return ServerError;
    }
    var (user, difficulty, subtasks) := input.value;
    var result := PredictEach(store, subtasks, user, difficulty, embed, norm, dim);
    if result.None? {
      return ServerError;
    }
    var (items, total) := result.value;
    return Ok(BatchResult(items, total, |subtasks|, Average(total, |subtasks|)));
  }

  /** Without a difficulty on the main task, a user without history gets 20 minutes per subtask (level 3). */
  lemma BatchDefaultDifficulty(store: seq<TaskRecord>, subtask: string, user: Json.Value, embed: string -> Vector, norm: Vector -> real, dim: nat)
    requires SameDimension(store, embed, dim)
    requires !user.JStr?
    ensures PredictValues(store, Json.JStr(subtask), user, Json.JInt(DefaultDifficulty), embed, norm, dim)
      == Some(Prediction(ColdStart, 20, Low, []))
  {
  }

  // ---------------------------------------------------------------------
  // GET /accuracy/<user_id>
  // ---------------------------------------------------------------------

  const NoTrainingData: string := "No training data found for this user"

  /** The accuracy endpoint: the latest figures, or 404 when the user has no training log. */
  function AccuracyEndpoint(logs: seq<TrainingLog>, user: string): (r: Response<Accuracy>)
    ensures r.Status() == 404 <==> forall i :: 0 <= i < |logs| ==> logs[i].userId != user
    ensures r.Status() == 404 ==> r == NotFound(NoTrainingData)
    ensures r.Status() == 200 || r.Status() == 404
    ensures r.Ok? ==> Some(r.body) == GetAccuracy(logs, user)
  {
    match GetAccuracy(logs, user)
    case None => NotFound(NoTrainingData)
    case Some(a) => Ok(a)
  }
}

=== FILE: cli.dfy ===
/**
 * The pure steps of the command-line pipeline: rendering a duration,
 * cleaning the language model's reply of Markdown code fences, totalling
 * the subtasks' minute estimates, and scoring an assignment from its
 * description and inputs.
 */
module Cli {
  import opened Wrappers
  import Text
  import Json
  import Mcdm
  import Difficulty

  // ---------------------------------------------------------------------
  // format_time
  // ---------------------------------------------------------------------

  /** The unit word for a count: singular exactly when the count is 1. */
  function Unit(n: int, singular: string): string {
    if n == 1 then singular else singular + "s"
  }

  /** `f"{n} {unit}"`. */
  function Quantity(n: nat, singular: string): string {
    Text.NatToString(n) + " " + Unit(n, singular)
  }

  /**
   * `format_time`: "0 minutes" for zero, otherwise the hours part, the
   * minutes part, or both. Python's `//` and `%` by 60 floor, which is what
   * Dafny's division does for a positive divisor; the remainder is never
   * negative.
   */
  function FormatTime(minutes: int): (s: string)
    ensures minutes == 0 ==> s == "0 minutes"
  {
    if minutes == 0 then "0 minutes" else Render(minutes / 60, minutes % 60)
  }

  /** The three layouts of a non-zero duration, from its whole hours and remaining minutes. */
  function Render(hours: int, mins: nat): string {
    if hours > 0 && mins > 0 then Quantity(hours, "hour") + " " + Quantity(mins, "minute")
    else if hours > 0 then Quantity(hours, "hour")
    else Quantity(mins, "minute")
  }

  /** A negative count shows only its (non-negative) remainder modulo 60: -90 shows as "30 minutes". */
  lemma FormatTimeNegative(minutes: int)
    requires minutes < 0
    ensures FormatTime(minutes) == FormatTime(minutes % 60)
  {
    var h := minutes / 60;
    var r := minutes % 60;
    assert h < 0 && 0 <= r < 60 by { assert minutes == 60 * h + r; }
    assert FormatTime(minutes) == Quantity(r, "minute");
    if r == 0 {
      assert FormatTime(r) == "0 minutes" == Quantity(0, "minute");
    } else {
      assert r / 60 == 0 && r % 60 == r;
    }
  }

  /**
   * A strict reader for the durations `FormatTime` writes: "H hour(s)",
   * "M minute(s)" or "H hour(s) M minute(s)", with the unit agreeing with
   * its count, at least one hour in an hours part and 0–59 minutes in a
   * minutes part (at least 1 when it follows hours).
   */
  function ParseDuration(s: string): (m: Option<int>)
    ensures m.Some? ==> m.value >= 0
  {
    var w := Text.Words(s);
    if |w| == 2 then
      match (ParseHours(w[0], w[1]), ParseMinutes(w[0], w[1]))
      case (Some(h), _) => Some(60 * h)
      case (_, Some(n)) => Some(n)
      case _ => None
    else if |w| == 4 then
      match (ParseHours(w[0], w[1]), ParseMinutes(w[2], w[3]))
      case (Some(h), Some(n)) => if n > 0 then Some(60 * h + n) else None
      case _ => None
    else None
  }

  function ParseHours(count: string, unit: string): (h: Option<nat>)
    ensures h.Some? ==> h.value >= 1
  {
    match Text.ParseNat(count)
    case Some(k) => if k >= 1 && unit == Unit(k, "hour") then Some(k) else None
    case None => None
  }

  function ParseMinutes(count: string, unit: string): (n: Option<nat>)
    ensures n.Some? ==> n.value < 60
  {
    match Text.ParseNat(count)
    case Some(k) => if k < 60 && unit == Unit(k, "minute") then Some(k) else None
    case None => None
  }

  /** A quantity splits into its numeral and its unit word. */
  lemma QuantityWords(n: nat, singular: string, rest: string)
    requires ' ' !in singular
    ensures Text.Words(Quantity(n, singular)) == [Text.NatToString(n), Unit(n, singular)]
    ensures Text.Words(Quantity(n, singular) + " " + rest) == [Text.NatToString(n), Unit(n, singular)] + Text.Words(rest)
  {
    Text.NatStringHasNoSpace(n);
    assert ' ' !in Unit(n, singular) by {
      assert Unit(n, singular) == singular || Unit(n, singular) == singular + "s";
    }
    Text.WordsPair(Text.NatToString(n), Unit(n, singular));
    Text.WordsPairThen(Text.NatToString(n), Unit(n, singular), rest);
  }

  /** The words of a rendered duration: the hours part when there are hours, the minutes part when there are minutes or no hours. */
  lemma RenderWords(hours: nat, mins: nat)
    ensures Text.Words(Render(hours, mins)) ==
      (if hours > 0 then [Text.NatToString(hours), Unit(hours, "hour")] else [])
      + (if mins > 0 || hours == 0 then [Text.NatToString(mins), Unit(mins, "minute")] else [])
  {
    if hours > 0 && mins > 0 {
      QuantityWords(hours, "hour", Quantity(mins, "minute"));
      QuantityWords(mins, "minute", "");
    } else if hours > 0 {
      QuantityWords(hours, "hour", "");
    } else {
      QuantityWords(mins, "minute", "");
    }
  }

  /** A numeral is never a word that starts with a letter. */
  lemma NumeralIsNotWord(n: nat, word: string)
    requires |word| > 0 && !Text.IsDigit(word[0])
    ensures Text.NatToString(n) != word
  {
    assert Text.IsDigit(Text.NatToString(n)[0]);
  }

  /** In a rendered duration, "hour", "hours" and "minute" appear exactly when the counts call for them. */
  lemma RenderSingular(hours: nat, mins: nat)
    ensures "hour" in Text.Words(Render(hours, mins)) <==> hours == 1
    ensures "hours" in Text.Words(Render(hours, mins)) <==> hours > 1
    ensures "minute" in Text.Words(Render(hours, mins)) <==> mins == 1 && (hours == 0 || mins > 0)
  {
    var hs := Text.NatToString(hours);
    var ms := Text.NatToString(mins);
    var hu := Unit(hours, "hour");
    var mu := Unit(mins, "minute");
    var w := Text.Words(Render(hours, mins));
    assert w == (if hours > 0 then [hs, hu] else []) + (if mins > 0 || hours == 0 then [ms, mu] else []) by {
      RenderWords(hours, mins);
    }
    NumeralIsNoUnit(hours);
    NumeralIsNoUnit(mins);
    UnitWordsDiffer(hours, mins);
    if hours > 0 && mins > 0 {
      assert w == [hs, hu, ms, mu];
    } else if hours > 0 {
      assert w == [hs, hu];
    } else {
      assert w == [ms, mu];
    }
  }

  /** The singular unit words appear exactly when the matching count is 1. */
  lemma FormatTimeSingular(minutes: int)
    requires minutes > 0
    ensures "hour" in Text.Words(FormatTime(minutes)) <==> minutes / 60 == 1
    ensures "hours" in Text.Words(FormatTime(minutes)) <==> minutes / 60 > 1
    ensures "minute" in Text.Words(FormatTime(minutes)) <==> minutes % 60 == 1
  {
    RenderSingular(minutes / 60, minutes % 60);
  }

  /** A numeral is none of the unit words. */
  lemma NumeralIsNoUnit(n: nat)
    ensures var s := Text.NatToString(n); s != "hour" && s != "hours" && s != "minute"
  {
    NumeralIsNotWord(n, "hour");
    NumeralIsNotWord(n, "hours");
    NumeralIsNotWord(n, "minute");
  }

  /** An hours unit is never a minutes word and vice versa; the singular is chosen exactly for a count of 1. */
  lemma UnitWordsDiffer(hours: nat, mins: nat)
    ensures var mu := Unit(mins, "minute"); mu != "hour" && mu != "hours" && (mu == "minute" <==> mins == 1)
    ensures var hu := Unit(hours, "hour"); hu != "minute" && (hu == "hour" <==> hours == 1) && (hu == "hours" <==> hours != 1)
  {
    assert |Unit(mins, "minute")| >= 6;
    assert |Unit(hours, "hour")| <= 5;
  }

  /** A rendered duration reads back as its hours and minutes. */
  lemma RenderRoundTrip(hours: nat, mins: nat)
    requires mins < 60
    ensures ParseDuration(Render(hours, mins)) == Some(60 * hours + mins)
  {
    var hs := Text.NatToString(hours);
    var ms := Text.NatToString(mins);
    var hu := Unit(hours, "hour");
    var mu := Unit(mins, "minute");
    assert Text.ParseNat(hs) == Some(hours) by {
      Text.NatStringRoundTrip(hours);
    }
    assert Text.ParseNat(ms) == Some(mins) by {
      Text.NatStringRoundTrip(mins);
    }
    var w := Text.Words(Render(hours, mins));
    assert w == (if hours > 0 then [hs, hu] else []) + (if mins > 0 || hours == 0 then [ms, mu] else []) by {
      RenderWords(hours, mins);
    }
    assert |hu| <= 5 && |Unit(hours, "minute")| >= 6 && |mu| >= 6 && |Unit(mins, "hour")| <= 5;
    if hours > 0 && mins > 0 {
      assert w == [hs, hu, ms, mu];
      assert ParseHours(hs, hu) == Some(hours);
      assert ParseMinutes(ms, mu) == Some(mins);
    } else if hours > 0 {
      assert w == [hs, hu];
      assert ParseHours(hs, hu) == Some(hours);
    } else {
      assert w == [ms, mu];
      assert ParseHours(ms, mu) == None;
      assert ParseMinutes(ms, mu) == Some(mins);
    }
  }

  /** A non-negative count is rendered from its whole hours and remaining minutes, zero included. */
  lemma FormatTimeRenders(minutes: int)
    requires minutes >= 0
    ensures FormatTime(minutes) == Render(minutes / 60, minutes % 60)
    ensures minutes == 60 * (minutes / 60) + minutes % 60 && 0 <= minutes % 60 < 60
  {
    if minutes == 0 {
      assert Render(0, 0) == Text.NatToString(0) + " " + "minutes";
    }
  }

  /** Every duration `FormatTime` writes for a non-negative count reads back as that count. */
  lemma FormatTimeRoundTrip(minutes: int)
    requires minutes >= 0
    ensures ParseDuration(FormatTime(minutes)) == Some(minutes)
  {
    FormatTimeRenders(minutes);
    RenderRoundTrip(minutes / 60, minutes % 60);
  }

  // ---------------------------------------------------------------------
  // Fence stripping (main.py, cleaning the extraction reply)
  // ---------------------------------------------------------------------

  const Fence: string := "```"

  const JsonFence: string := "```json"

  /** Something that starts with `p` contains it, at 0. */
  lemma StartsWithFinds(s: string, p: string)
    requires Text.StartsWith(s, p)
    ensures Text.Find(s, p) == Some(0)
  {
    assert Text.OccursAt(s, p, 0);
  }

  /**
   * The reply with surrounding whitespace removed and, when it opens with a
   * "```json" or bare "```" fence, only the trimmed text between that
   * opening and the next fence. The json opening is checked first.
   */
  function StripFences(reply: string): (cleaned: string)
    ensures !Text.StartsWith(Text.Strip(reply), Fence) ==> cleaned == Text.Strip(reply)
    ensures Text.Strip(cleaned) == cleaned
    ensures Text.StartsWith(Text.Strip(reply), Fence) ==> forall j :: !Text.OccursAt(cleaned, Fence, j)
  {
    var t := Text.Strip(reply);
    Text.StripIdempotent(reply);
    if Text.StartsWith(t, JsonFence) then
      JsonFenceOpensFence(t);
      FencedBody(t, JsonFence)
    else if Text.StartsWith(t, Fence) then FencedBody(t, Fence)
    else t
  }

  /** A fenced reply yields the body after its opener, where a "```json" opener takes precedence over a bare one. */
  lemma StripFencesFenced(reply: string)
    ensures var t := Text.Strip(reply);
      Text.StartsWith(t, JsonFence) ==> StripFences(reply) == FencedBody(t, JsonFence)
    ensures var t := Text.Strip(reply);
      Text.StartsWith(t, Fence) && !Text.StartsWith(t, JsonFence) ==> StripFences(reply) == FencedBody(t, Fence)
  {
  }

  /** On text that is already stripped, the opener alone selects the branch. */
  lemma StrippedDispatch(t: string)
    requires Text.Strip(t) == t
    ensures Text.StartsWith(t, JsonFence) ==> StripFences(t) == FencedBody(t, JsonFence)
    ensures Text.StartsWith(t, Fence) && !Text.StartsWith(t, JsonFence) ==> StripFences(t) == FencedBody(t, Fence)
  {
    StripFencesFenced(t);
  }

  /**
   * `t.split(opener)[1].split("```")[0].strip()` for a text that starts with
   * `opener`: what follows the opener, cut at the next occurrence of the
   * opener and then at the first fence, trimmed.
   */
  function FencedBody(t: string, opener: string): (body: string)
    requires |opener| > 0 && Text.StartsWith(t, opener)
    ensures Text.Strip(body) == body
    ensures forall j :: !Text.OccursAt(body, Fence, j)
  {
    StartsWithFinds(t, opener);
    var inner := Text.Before(Text.SecondPiece(t, opener), Fence);
    NoOccurrenceAfterStrip(inner, Fence);
    Text.StripIdempotent(inner);
    Text.Strip(inner)
  }

  /**
   * The fenced body is what follows the opener, cut at the next occurrence of
   * the opener and then at the first fence, trimmed; after a bare opener, it is
   * simply everything up to the next fence, trimmed.
   */
  lemma FencedBodyIsCut(t: string, opener: string)
    requires |opener| > 0 && Text.StartsWith(t, opener)
    ensures FencedBody(t, opener) == Text.Strip(Text.Before(Text.Before(t[|opener|..], opener), Fence))
    ensures opener == Fence ==> FencedBody(t, opener) == Text.Strip(Text.Before(t[|opener|..], Fence))
  {
    StartsWithFinds(t, opener);
    BeforeIdempotent(t[|opener|..], Fence);
  }

  /** Cutting at the first occurrence twice is cutting once. */
  lemma BeforeIdempotent(s: string, p: string)
    requires |p| > 0
    ensures Text.Before(Text.Before(s, p), p) == Text.Before(s, p)
  {
    BeforeAbsent(Text.Before(s, p), p);
  }

  /** Stripping cuts a contiguous piece, so it cannot create an occurrence. */
  lemma NoOccurrenceAfterStrip(s: string, p: string)
    requires forall j :: 0 <= j && j + |p| <= |s| ==> !Text.OccursAt(s, p, j)
    ensures forall j :: !Text.OccursAt(Text.Strip(s), p, j)
  {
    Text.StripIsPiece(s);
    var off := Text.LeadingSpace(s);
    Text.NoOccurrenceInSlice(s, p, off, off + |Text.Strip(s)|);
  }

  /** The value of `Before` when the first occurrence is known. */
  lemma BeforeFirst(s: string, p: string, i: nat)
    requires |p| > 0 && Text.OccursAt(s, p, i)
    requires forall j :: 0 <= j < i ==> !Text.OccursAt(s, p, j)
    ensures Text.Before(s, p) == s[..i]
  {
  }

  /** The value of `Before` when there is no occurrence. */
  lemma BeforeAbsent(s: string, p: string)
    requires |p| > 0
    requires forall j :: 0 <= j && j + |p| <= |s| ==> !Text.OccursAt(s, p, j)
    ensures Text.Before(s, p) == s
  {
  }

  /** Text without backticks followed by a fence and anything: no backtick-led marker starts inside that text. */
  lemma ClosingFence(body: string, tail: string, p: string)
    requires '`' !in body && |p| > 0 && p[0] == '`'
    ensures forall j :: 0 <= j < |body| ==> !Text.OccursAt(body + (Fence + tail), p, j)
  {
    var s := body + (Fence + tail);
    forall j | 0 <= j < |body|
      ensures !Text.OccursAt(s, p, j)
    {
      assert s[j] == body[j];
      if j + |p| <= |s| {
        assert s[j..j + |p|][0] == s[j];
      }
    }
  }

  /** Cutting text without backticks, a fence and anything at the first fence leaves the text. */
  lemma BeforeClosingFence(body: string, tail: string)
    requires '`' !in body
    ensures Text.Before(body + (Fence + tail), Fence) == body
  {
    var s := body + (Fence + tail);
    ClosingFence(body, tail, Fence);
    assert s[|body|..|body| + 3] == Fence;
    BeforeFirst(s, Fence, |body|);
    assert s[..|body|] == body;
  }

  /**
   * After text without backticks and a fence, a "```json" marker can start
   * only at the fence itself, unless more backticks follow the fence.
   */
  lemma JsonFenceAfterClose(body: string, tail: string, j: int)
    requires '`' !in body && (tail == [] || tail[0] != '`')
    requires Text.OccursAt(body + (Fence + tail), JsonFence, j)
    ensures j == |body| || j >= |body| + 3
  {
    var s := body + (Fence + tail);
    assert s[j..j + 7] == JsonFence;
    assert s[j] == '`' && s[j + 1] == '`' && s[j + 2] == '`' by {
      assert s[j..j + 7][0] == s[j] && s[j..j + 7][1] == s[j + 1] && s[j..j + 7][2] == s[j + 2];
    }
  }

  /**
   * The json branch on text without backticks, a fence and a tail that does
   * not start with a backtick: the cut at "```json" keeps at least the text,
   * and the cut at the fence leaves exactly the text.
   */
  lemma JsonBodyBeforeClose(body: string, tail: string)
    requires '`' !in body && (tail == [] || tail[0] != '`')
    ensures Text.Before(Text.Before(body + (Fence + tail), JsonFence), Fence) == body
  {
    var s := body + (Fence + tail);
    var a := Text.Before(s, JsonFence);
    if |a| < |s| {
      JsonFenceAfterClose(body, tail, |a|);
    }
    assert s[..|body|] == body;
    if |a| == |body| {
      assert a == body;
      NoBacktickNoFence(body, Fence);
      BeforeAbsent(body, Fence);
    } else {
      var rest := tail[..|a| - |body| - 3];
      assert a == s[..|a|];
      assert a == body + (Fence + rest);
      BeforeClosingFence(body, rest);
    }
  }

  lemma StripKeeps(s: string)
    requires |s| > 0 && s[0] == '`' && (s[|s| - 1] == '`' || !Text.IsSpace(s[|s| - 1]))
    ensures Text.Strip(s) == s
  {
  }

  lemma OpenedBy(opener: string, rest: string)
    ensures Text.StartsWith(opener + rest, opener)
    ensures (opener + rest)[|opener|..] == rest
  {
    assert (opener + rest)[..|opener|] == opener;
  }

  /** Whatever follows, a bare fence around text that does not begin with "json" is not a json fence. */
  lemma NotJsonOpened(body: string, tail: string)
    requires '`' !in body && !Text.StartsWith(body, "json")
    ensures !Text.StartsWith(Fence + (body + (Fence + tail)), JsonFence)
  {
    var t := Fence + (body + (Fence + tail));
    if |body| >= 4 {
      assert t[3..7] == body[..4];
      assert body[..4] != "json";
      var k :| 0 <= k < 4 && body[..4][k] != "json"[k];
      assert t[3 + k] != JsonFence[3 + k];
    } else {
      assert t[3 + |body|] == '`';
      assert JsonFence[3 + |body|] != '`';
    }
  }

  /** A "```json" opening is also a bare "```" opening. */
  lemma JsonFenceOpensFence(t: string)
    requires Text.StartsWith(t, JsonFence)
    ensures Text.StartsWith(t, Fence)
  {
    assert JsonFence[..3] == Fence;
    assert t[..3] == t[..7][..3];
  }

  /** A text without backticks contains no fence marker. */
  lemma NoBacktickNoFence(s: string, p: string)
    requires '`' !in s && |p| > 0 && p[0] == '`'
    ensures forall j :: 0 <= j && j + |p| <= |s| ==> !Text.OccursAt(s, p, j)
  {
    forall j | 0 <= j && j + |p| <= |s|
      ensures !Text.OccursAt(s, p, j)
    {
      assert s[j..j + |p|][0] == s[j];
    }
  }

  /** A reply ends where `strip()` would leave it when its tail is empty or ends in a non-space. */
  predicate EndsClean(tail: string) {
    tail == [] || !Text.IsSpace(tail[|tail| - 1])
  }

  /** A reply that opens with a backtick and ends cleanly is left alone by `strip()`. */
  lemma FencedReplyStripped(opener: string, body: string, tail: string)
    requires |opener| > 0 && opener[0] == '`' && EndsClean(tail)
    ensures Text.Strip(opener + (body + (Fence + tail))) == opener + (body + (Fence + tail))
  {
    var t := opener + (body + (Fence + tail));
    assert t[0] == '`';
    assert t[|t| - 1] == (if tail == [] then '`' else tail[|tail| - 1]);
    StripKeeps(t);
  }

  /**
   * A body without backticks in a "```json" fence comes back trimmed, and any
   * text after the closing fence is dropped (unless it starts with another backtick).
   */
  lemma StripFencesJsonBlock(body: string, tail: string)
    requires '`' !in body && (tail == [] || tail[0] != '`') && EndsClean(tail)
    ensures StripFences(JsonFence + (body + (Fence + tail))) == Text.Strip(body)
  {
    var t := JsonFence + (body + (Fence + tail));
    FencedReplyStripped(JsonFence, body, tail);
    OpenedBy(JsonFence, body + (Fence + tail));
    StrippedDispatch(t);
    JsonBlockBody(body, tail);
  }

  lemma JsonBlockBody(body: string, tail: string)
    requires '`' !in body && (tail == [] || tail[0] != '`')
    ensures FencedBody(JsonFence + (body + (Fence + tail)), JsonFence) == Text.Strip(body)
  {
    var after := body + (Fence + tail);
    OpenedBy(JsonFence, after);
    FencedBodyIsCut(JsonFence + after, JsonFence);
    JsonBodyBeforeClose(body, tail);
  }

  /**
   * A body without backticks that does not begin with "json", in bare fences,
   * comes back trimmed, and any text after the closing fence is dropped.
   */
  lemma StripFencesBareBlock(body: string, tail: string)
    requires '`' !in body && !Text.StartsWith(body, "json") && EndsClean(tail)
    ensures StripFences(Fence + (body + (Fence + tail))) == Text.Strip(body)
  {
    FencedReplyStripped(Fence, body, tail);
    NotJsonOpened(body, tail);
    OpenedBy(Fence, body + (Fence + tail));
    StrippedDispatch(Fence + (body + (Fence + tail)));
    BareBlockBody(body, tail);
  }

  lemma BareBlockBody(body: string, tail: string)
    requires '`' !in body
    ensures FencedBody(Fence + (body + (Fence + tail)), Fence) == Text.Strip(body)
  {
    var after := body + (Fence + tail);
    OpenedBy(Fence, after);
    FencedBodyIsCut(Fence + after, Fence);
    BeforeClosingFence(body, tail);
  }

  // ---------------------------------------------------------------------
  // Subtask minutes (main.py, the estimate totals)
  // ---------------------------------------------------------------------

  /**
   * The minutes one subtask contributes: for an object, `estimated_minutes`
   * unless it is absent or null, else `estimated_hours` (default 0) times 60;
   * anything but an object contributes 0. `None` is the TypeError a
   * non-numeric estimate raises, which aborts the run.
   */
  function SubtaskMinutes(subtask: Json.Value): (m: Option<int>)
    ensures !subtask.JObj? ==> m == Some(0)
  {
    match subtask
    case JObj(fields) =>
      var minutes := Json.Get(fields, "estimated_minutes");
      if !minutes.JNull? then Json.AsInt(minutes)
      else HoursToMinutes(Json.GetOr(fields, "estimated_hours", Json.JInt(0)))
    case _ => Some(0)
  }

  /** `hours * 60` for an integer (or bool) number of hours; None for the TypeError anything else raises. */
  function HoursToMinutes(hours: Json.Value): (m: Option<int>)
    ensures m.Some? <==> Json.AsInt(hours).Some?
    ensures m.Some? ==> m.value == 60 * Json.AsInt(hours).value
  {
    match Json.AsInt(hours)
    case Some(h) => Some(h * 60)
    case None => None
  }

  /** Minutes are taken as given when present; hours (default 0) are converted otherwise. */
  lemma SubtaskMinutesChoice(fields: map<string, Json.Value>)
    ensures "estimated_minutes" in fields && fields["estimated_minutes"].JInt? ==>
      SubtaskMinutes(Json.JObj(fields)) == Some(fields["estimated_minutes"].i)
    ensures Json.Get(fields, "estimated_minutes").JNull? && "estimated_hours" in fields && fields["estimated_hours"].JInt? ==>
      SubtaskMinutes(Json.JObj(fields)) == Some(60 * fields["estimated_hours"].i)
    ensures Json.Get(fields, "estimated_minutes").JNull? && "estimated_hours" !in fields ==>
      SubtaskMinutes(Json.JObj(fields)) == Some(0)
    ensures Json.Get(fields, "estimated_minutes").JStr? ==> SubtaskMinutes(Json.JObj(fields)).None?
  {
  }

  /** The reference total: the sum of the contributions, or None when any of them fails. */
  function SumMinutes(subtasks: seq<Json.Value>): Option<int> {
    if |subtasks| == 0 then Some(0)
    else
      var last := subtasks[|subtasks| - 1];
      match (SumMinutes(subtasks[..|subtasks| - 1]), SubtaskMinutes(last))
      case (Some(a), Some(b)) => Some(a + b)
      case _ => None
  }

  /** The running total of the display loop, which stops at the first failing estimate. */
  method TotalSubtaskMinutes(subtasks: seq<Json.Value>) returns (total: Option<int>)
    ensures total == SumMinutes(subtasks)
    ensures total.None? <==> exists k :: 0 <= k < |subtasks| && SubtaskMinutes(subtasks[k]).None?
  {
    var sum := 0;
    var k := 0;
    while k < |subtasks|
      invariant 0 <= k <= |subtasks|
      invariant SumMinutes(subtasks[..k]) == Some(sum)
      invariant forall j :: 0 <= j < k ==> SubtaskMinutes(subtasks[j]).Some?
    {
      assert subtasks[..k + 1][..k] == subtasks[..k];
      match SubtaskMinutes(subtasks[k])
      case None =>
        SumMinutesFails(subtasks, k);
        total := None;
        return;
      case Some(m) =>
        sum := sum + m;
      k := k + 1;
    }
    assert subtasks[..k] == subtasks;
    total := Some(sum);
  }

  /** One failing estimate makes the whole total fail. */
  lemma {:induction false} SumMinutesFails(subtasks: seq<Json.Value>, k: nat)
    requires k < |subtasks| && SubtaskMinutes(subtasks[k]).None?
    ensures SumMinutes(subtasks).None?
    decreases |subtasks|
  {
    var n := |subtasks| - 1;
    if k < n {
      assert subtasks[..n][k] == subtasks[k];
      SumMinutesFails(subtasks[..n], k);
    }
  }

  /** Subtasks that are not objects (plain strings) add nothing to the total. */
  lemma {:induction false} SumMinutesSkipsPlain(subtasks: seq<Json.Value>, plain: Json.Value)
    requires !plain.JObj?
    ensures SumMinutes(subtasks + [plain]) == SumMinutes(subtasks)
    ensures SumMinutes([plain] + subtasks) == SumMinutes(subtasks)
    decreases |subtasks|
  {
    assert (subtasks + [plain])[..|subtasks|] == subtasks;
    var s := [plain] + subtasks;
    if |subtasks| == 0 {
      assert s == [plain] && s[..0] == [];
    } else {
      var n := |subtasks| - 1;
      assert s[..|s| - 1] == [plain] + subtasks[..n];
      assert s[|s| - 1] == subtasks[n];
      SumMinutesSkipsPlain(subtasks[..n], plain);
    }
  }

  /** The total of two lists of subtasks is the sum of their totals. */
  lemma {:induction false} SumMinutesAppend(a: seq<Json.Value>, b: seq<Json.Value>)
    ensures SumMinutes(a + b) == (match (SumMinutes(a), SumMinutes(b))
      case (Some(x), Some(y)) => Some(x + y)
      case _ => None)
    decreases |b|
  {
    if |b| == 0 {
      assert a + b == a;
    } else {
      var n := |b| - 1;
      assert (a + b)[..|a + b| - 1] == a + b[..n];
      assert (a + b)[|a + b| - 1] == b[n];
      SumMinutesAppend(a, b[..n]);
    }
  }

  // ---------------------------------------------------------------------
  // Scoring an extracted assignment (main.py, steps 2 and 3)
  // ---------------------------------------------------------------------

  /**
   * Steps 2 and 3 of the pipeline: the predicted difficulty with the default
   * fallback, then the MCDM scores. The automated mode passes credits and
   * weight through unchecked, so any integers are accepted here.
   */
  function AnalyzeTask(
    predictor: Difficulty.Predictor, description: string, daysLeft: int, credits: int, weightPercentage: int)
    : (s: Mcdm.Scores)
    ensures s == Mcdm.ValidateMcdm(daysLeft, credits, weightPercentage,
      Difficulty.PredictDifficulty(predictor, description, Difficulty.DefaultFallback))
    ensures s.difficulty == 20 || s.difficulty == 60 || s.difficulty == 100
    ensures 17.0 <= s.final <= 100.0
    ensures !predictor.loaded ==> s.difficulty == 60
  {
    var rating := Difficulty.PredictDifficulty(predictor, description, Difficulty.DefaultFallback);
    Difficulty.PredictDifficultyDefaultRange(predictor, description);
    var urgency := Mcdm.Urgency(daysLeft);
    var impact := Mcdm.Impact(credits, weightPercentage);
    var difficulty := Mcdm.DifficultyScore(rating);
    var final := Mcdm.FinalScore(urgency, impact, difficulty);
    Mcdm.Scores(urgency, impact, difficulty, final, Mcdm.Label(final))
  }
}

=== FILE: difficulty.dfy ===
/**
 * The difficulty predictor: a sentence embedding fed to a three-class
 * classifier (easy, medium, hard), mapped onto the 1–5 rating scale.
 * Loading the pickled model and running the classifier are external; the
 * model file is described by its shape and the classifier is a parameter
 * that may fail (`None`), standing for any exception it raises.
 */
module Difficulty {
  import opened Wrappers
  import Text

  /** What `predict` and `predict_proba` return for one description. */
  datatype Classification = Classification(predictedClass: int, probabilities: seq<real>)

  /** The model file on disk: absent, unreadable as a dictionary, or a pickled dictionary with these keys. */
  datatype ModelFile = Missing | Unreadable | Pickled(keys: set<string>)

  datatype Predictor = Predictor(loaded: bool, classify: string -> Option<Classification>)

  const SbertKey: string := "sbert_model"

  const ClassifierKey: string := "xgboost_judge"

  const DefaultFallback: int := 3

  /**
   * The constructor: `_load_model` raises on a missing file, an unreadable
   * pickle or a missing key, and the exception leaves the predictor unloaded.
   */
  function Load(file: ModelFile, classify: string -> Option<Classification>): (p: Predictor)
    ensures p.loaded <==> file.Pickled? && SbertKey in file.keys && ClassifierKey in file.keys
    ensures p.classify == classify
  {
    match file
    case Missing => Predictor(false, classify)
    case Unreadable => Predictor(false, classify)
    case Pickled(keys) => Predictor(SbertKey in keys && ClassifierKey in keys, classify)
  }

  /** `class_to_score.get(cls, fallback)`: easy 1, medium 3, hard 5. */
  function ClassToScore(predictedClass: int, fallback: int): (score: int)
    ensures 0 <= predictedClass <= 2 ==> score == 2 * predictedClass + 1
    ensures !(0 <= predictedClass <= 2) ==> score == fallback
  {
    if predictedClass == 0 then 1
    else if predictedClass == 1 then 3
    else if predictedClass == 2 then 5
    else fallback
  }

  /**
   * `predict_difficulty`: the fallback when the model is not loaded, when the
   * description is blank, or when classification raises (including the
   * report's read of three class probabilities when fewer come back);
   * otherwise the rating of the predicted class.
   */
  function PredictDifficulty(p: Predictor, description: string, fallback: int): (rating: int)
    ensures rating == fallback || rating == 1 || rating == 3 || rating == 5
    ensures !p.loaded || Text.AllSpace(description) ==> rating == fallback
    ensures p.classify(description).None? ==> rating == fallback
    ensures p.loaded && !Text.AllSpace(description) && p.classify(description).Some? ==>
      var c := p.classify(description).value;
      rating == (if |c.probabilities| >= 3 && 0 <= c.predictedClass <= 2 then 2 * c.predictedClass + 1 else fallback)
  {
    if !p.loaded || Text.Strip(description) == [] then fallback
    else match p.classify(description)
      case None => fallback
      case Some(c) =>
        if |c.probabilities| < 3 then fallback
        else ClassToScore(c.predictedClass, fallback)
  }

  /** With the default fallback the rating is always one of the three class ratings, and medium when in doubt. */
  lemma PredictDifficultyDefaultRange(p: Predictor, description: string)
    ensures PredictDifficulty(p, description, DefaultFallback) in {1, 3, 5}
    ensures !p.loaded ==> PredictDifficulty(p, description, DefaultFallback) == 3
  {
  }

  /** The rating never depends on the probability values, only on how many there are. */
  lemma PredictDifficultyIgnoresProbabilities(
    p: Predictor, q: Predictor, description: string, fallback: int)
    requires p.loaded == q.loaded
    requires p.classify(description).Some? && q.classify(description).Some?
    requires p.classify(description).value.predictedClass == q.classify(description).value.predictedClass
    requires |p.classify(description).value.probabilities| >= 3 && |q.classify(description).value.probabilities| >= 3
    ensures PredictDifficulty(p, description, fallback) == PredictDifficulty(q, description, fallback)
  {
  }

  /** A predictor loaded from a file without the classifier entry always answers the fallback. */
  lemma IncompleteModelFallsBack(keys: set<string>, classify: string -> Option<Classification>, description: string, fallback: int)
    requires ClassifierKey !in keys
    ensures PredictDifficulty(Load(Pickled(keys), classify), description, fallback) == fallback
  {
  }
}

=== FILE: estimator.dfy ===
/**
 * The adaptive time estimator's prediction: a similarity-weighted average
 * of the actual times of similar completed subtasks (warm start), or a
 * fixed table lookup on the difficulty level when there are none (cold start).
 */
module Estimator {
  import opened Wrappers
  import opened Similarity
  import opened TaskStore
  import opened Search

  // ---------------------------------------------------------------------
  // Warm start
  // ---------------------------------------------------------------------

  /** `sum(t['similarity'] for t in similar_tasks)`. */
  function TotalSimilarity(ms: seq<Match>): real {
    if |ms| == 0 then 0.0 else ms[0].similarity + TotalSimilarity(ms[1..])
  }

  /** `sum((t['similarity'] / total_sim) * t['actual_time'] ...)`, each weight normalised separately. */
  function WeightedSum(ms: seq<Match>, total: real): real
    requires total != 0.0
  {
    if |ms| == 0 then 0.0
    else (ms[0].similarity / total) * ms[0].actualTime as real + WeightedSum(ms[1..], total)
  }

  /** `sum(similarity * actual_time)`: the numerator of the weighted mean. */
  function SimilarityTimeProducts(ms: seq<Match>): real {
    if |ms| == 0 then 0.0 else ms[0].similarity * ms[0].actualTime as real + SimilarityTimeProducts(ms[1..])
  }

  /** Normalising each weight separately is the same as dividing the product sum once. */
  lemma {:induction false} WeightedSumIsMean(ms: seq<Match>, total: real)
    requires total != 0.0
    ensures WeightedSum(ms, total) == SimilarityTimeProducts(ms) / total
  {
    if |ms| > 0 {
      WeightedSumIsMean(ms[1..], total);
      var s := ms[0].similarity;
      var t := ms[0].actualTime as real;
      assert (s / total) * t == (s * t) / total;
    }
  }

  /** Python's built-in `round` on a number: to the nearest integer, halves to the even neighbour. */
  function RoundHalfEven(x: real): (n: int)
    ensures x - 0.5 <= n as real <= x + 0.5
    ensures x - x.Floor as real != 0.5 ==> x - 0.5 < n as real < x + 0.5
    ensures x - x.Floor as real == 0.5 ==> n % 2 == 0
  {
    var f := x.Floor;
    var frac := x - f as real;
    if frac < 0.5 then f
    else if frac > 0.5 then f + 1
    else if f % 2 == 0 then f
    else f + 1
  }

  /** Rounding keeps a value between two integer bounds between them. */
  lemma RoundBetween(x: real, lo: int, hi: int)
    requires lo as real <= x <= hi as real
    ensures lo <= RoundHalfEven(x) <= hi
  {
  }

  /** Rounding an integer gives it back. */
  lemma RoundInteger(k: int)
    ensures RoundHalfEven(k as real) == k
  {
  }

  predicate PositiveSimilarities(ms: seq<Match>) {
    forall k :: 0 <= k < |ms| ==> ms[k].similarity > 0.0
  }

  /** The smallest actual time among the matches. */
  function MinTime(ms: seq<Match>): (t: int)
    requires |ms| > 0
    ensures forall k :: 0 <= k < |ms| ==> t <= ms[k].actualTime
    ensures exists k :: 0 <= k < |ms| && t == ms[k].actualTime
  {
    if |ms| == 1 then ms[0].actualTime
    else
      var rest := MinTime(ms[1..]);
      assert forall k :: 1 <= k < |ms| ==> ms[k] == ms[1..][k - 1];
      if ms[0].actualTime <= rest then ms[0].actualTime else rest
  }

  /** The largest actual time among the matches. */
  function MaxTime(ms: seq<Match>): (t: int)
    requires |ms| > 0
    ensures forall k :: 0 <= k < |ms| ==> ms[k].actualTime <= t
    ensures exists k :: 0 <= k < |ms| && t == ms[k].actualTime
  {
    if |ms| == 1 then ms[0].actualTime
    else
      var rest := MaxTime(ms[1..]);
      assert forall k :: 1 <= k < |ms| ==> ms[k] == ms[1..][k - 1];
      if ms[0].actualTime >= rest then ms[0].actualTime else rest
  }

  lemma {:induction false} TotalSimilarityPositive(ms: seq<Match>)
    requires PositiveSimilarities(ms)
    ensures |ms| > 0 ==> TotalSimilarity(ms) > 0.0
    ensures TotalSimilarity(ms) >= 0.0
  {
    if |ms| > 0 {
      TotalSimilarityPositive(ms[1..]);
    }
  }

  /** Every match has a positive similarity and an actual time within the bounds, stated one match at a time. */
  predicate WeightedWithin(ms: seq<Match>, lo: real, hi: real) {
    |ms| == 0 ||
    (ms[0].similarity > 0.0 && lo <= ms[0].actualTime as real <= hi && WeightedWithin(ms[1..], lo, hi))
  }

  lemma {:induction false} WeightedWithinAll(ms: seq<Match>, lo: real, hi: real)
    requires PositiveSimilarities(ms)
    requires forall k :: 0 <= k < |ms| ==> lo <= ms[k].actualTime as real <= hi
    ensures WeightedWithin(ms, lo, hi)
  {
    if |ms| > 0 {
      assert forall k :: 0 <= k < |ms| - 1 ==> ms[1..][k] == ms[k + 1];
      WeightedWithinAll(ms[1..], lo, hi);
    }
  }

  /** With positive weights, the product sum lies between the total weight times the bounds. */
  lemma {:induction false} ProductsBetween(ms: seq<Match>, lo: real, hi: real)
    requires WeightedWithin(ms, lo, hi)
    ensures TotalSimilarity(ms) * lo <= SimilarityTimeProducts(ms) <= TotalSimilarity(ms) * hi
  {
    if |ms| > 0 {
      ProductsBetween(ms[1..], lo, hi);
      ProductStep(ms[0].similarity, ms[0].actualTime as real,
        TotalSimilarity(ms[1..]), SimilarityTimeProducts(ms[1..]),
        TotalSimilarity(ms), SimilarityTimeProducts(ms), lo, hi);
    }
  }

  /** One more weight `s` on a time `t` within the bounds keeps the product sum within them. */
  lemma ProductStep(s: real, t: real, total: real, p: real, total': real, p': real, lo: real, hi: real)
    requires s > 0.0 && lo <= t <= hi
    requires total * lo <= p <= total * hi
    requires total' == s + total && p' == s * t + p
    ensures total' * lo <= p' <= total' * hi
  {
    assert s * (t - lo) >= 0.0;
    assert s * (hi - t) >= 0.0;
  }

  /** The normalised weighted sum is a weighted mean: it stays within any bounds on the actual times. */
  lemma WeightedSumBetween(ms: seq<Match>, lo: int, hi: int)
    requires |ms| > 0 && PositiveSimilarities(ms)
    requires forall k :: 0 <= k < |ms| ==> lo <= ms[k].actualTime <= hi
    ensures TotalSimilarity(ms) > 0.0
    ensures lo as real <= WeightedSum(ms, TotalSimilarity(ms)) <= hi as real
  {
    TotalSimilarityPositive(ms);
    WeightedMeanBetween(ms, TotalSimilarity(ms), lo as real, hi as real);
  }

  /** With the weights' own total as the divisor, each normalised weight is at most one and together they sum to one. */
  lemma WeightedMeanBetween(ms: seq<Match>, total: real, lo: real, hi: real)
    requires total > 0.0 && total == TotalSimilarity(ms) && PositiveSimilarities(ms)
    requires forall k :: 0 <= k < |ms| ==> lo <= ms[k].actualTime as real <= hi
    ensures lo <= WeightedSum(ms, total) <= hi
  {
    WeightedSumIsMean(ms, total);
    WeightedWithinAll(ms, lo, hi);
    ProductsBetween(ms, lo, hi);
    QuotientBetween(SimilarityTimeProducts(ms), total, lo, hi);
  }

  lemma QuotientBetween(p: real, total: real, lo: real, hi: real)
    requires total > 0.0
    requires total * lo <= p <= total * hi
    ensures lo <= p / total <= hi
  {
    var q := p / total;
    assert q * total == p;
    assert (q - lo) * total >= 0.0;
    assert (hi - q) * total >= 0.0;
  }

  /**
   * `warm_start_prediction`: None for no matches, otherwise the rounded
   * similarity-weighted mean of their actual times. A zero total similarity
   * is a division by zero in `warm_start_prediction`, so callers must rule it out.
   */
  function WarmStartPrediction(ms: seq<Match>): (t: Option<int>)
    requires ms == [] || TotalSimilarity(ms) != 0.0
    ensures t.None? <==> ms == []
    ensures ms != [] ==> t.value == RoundHalfEven(SimilarityTimeProducts(ms) / TotalSimilarity(ms))
    ensures ms != [] && PositiveSimilarities(ms) ==> MinTime(ms) <= t.value <= MaxTime(ms)
  {
    if ms == [] then None
    else
      WeightedSumIsMean(ms, TotalSimilarity(ms));
      var estimate := RoundHalfEven(WeightedSum(ms, TotalSimilarity(ms)));
      if PositiveSimilarities(ms) then
        WeightedSumBetween(ms, MinTime(ms), MaxTime(ms));
        RoundBetween(WeightedSum(ms, TotalSimilarity(ms)), MinTime(ms), MaxTime(ms));
        Some(estimate)
      else Some(estimate)
  }

  /** Matches that all took the same time predict exactly that time. */
  lemma WarmStartPredictionUnanimous(ms: seq<Match>, t: int)
    requires |ms| > 0 && PositiveSimilarities(ms)
    requires forall k :: 0 <= k < |ms| ==> ms[k].actualTime == t
    ensures TotalSimilarity(ms) > 0.0
    ensures WarmStartPrediction(ms) == Some(t)
  {
    TotalSimilarityPositive(ms);
    var lo := MinTime(ms);
    var hi := MaxTime(ms);
  }

  /** Two matches at 0.8 (10 min) and 0.4 (20 min): 6.67 + 6.67 = 13.33, which rounds to 13. */
  lemma WarmStartPredictionExample()
    ensures WarmStartPrediction([Match("a", 0.8, 10, "general"), Match("b", 0.4, 20, "general")]) == Some(13)
  {
    var ms := [Match("a", 0.8, 10, "general"), Match("b", 0.4, 20, "general")];
    assert ms[1..][1..] == [];
    assert TotalSimilarity(ms) == 1.2;
    assert WeightedSum(ms, 1.2) == (0.8 / 1.2) * 10.0 + (0.4 / 1.2) * 20.0;
    assert (0.8 / 1.2) * 10.0 + (0.4 / 1.2) * 20.0 == 40.0 / 3.0;
    assert (40.0 / 3.0).Floor == 13;
  }

  // ---------------------------------------------------------------------
  // Cold start
  // ---------------------------------------------------------------------

  /** The difficulty value as a dictionary key: an integer level, or any other hashable value. */
  datatype DifficultyKey = Level(n: int) | OtherKey

  /** Minutes per difficulty level, easiest first. */
  const DifficultyMinutes: map<int, int> := map[1 := 10, 2 := 15, 3 := 20, 4 := 30, 5 := 45]

  const DefaultMinutes: int := 20

  /** `cold_start_prediction`: the table entry for a level 1–5, 20 minutes for any other key. */
  function ColdStartPrediction(difficulty: DifficultyKey): (t: int)
    ensures 10 <= t <= 45
    ensures !(difficulty.Level? && 1 <= difficulty.n <= 5) ==> t == DefaultMinutes
    ensures difficulty.Level? && difficulty.n in DifficultyMinutes ==> t == DifficultyMinutes[difficulty.n]
  {
    if difficulty.Level? && difficulty.n in DifficultyMinutes then DifficultyMinutes[difficulty.n] else DefaultMinutes
  }

  /** A harder level always gets strictly more time. */
  lemma ColdStartPredictionIncreasing(a: int, b: int)
    requires 1 <= a < b <= 5
    ensures ColdStartPrediction(Level(a)) < ColdStartPrediction(Level(b))
  {
  }

  /** An unknown difficulty is treated as the middle level. */
  lemma ColdStartPredictionDefaultIsMiddle(difficulty: DifficultyKey)
    requires !(difficulty.Level? && 1 <= difficulty.n <= 5)
    ensures ColdStartPrediction(difficulty) == ColdStartPrediction(Level(3))
  {
  }

  // ---------------------------------------------------------------------
  // predict_time
  // ---------------------------------------------------------------------

  datatype Prediction = Prediction(
    predictionMethod: Method,
    predictedTime: int,
    confidence: Confidence,
    similarTasks: seq<Match>)

  /** Search hits at the default threshold all have a positive similarity. */
  lemma HitsArePositive(ms: seq<Match>)
    requires forall k :: 0 <= k < |ms| ==> ms[k].similarity >= DefaultThreshold
    ensures PositiveSimilarities(ms)
    ensures ms != [] ==> TotalSimilarity(ms) > 0.0
  {
    TotalSimilarityPositive(ms);
  }

  /**
   * `predict_time`: a warm start with HIGH confidence when the search finds
   * similar completed subtasks, otherwise a cold start with LOW confidence
   * and no similar tasks.
   */
  function PredictTime(
    store: seq<TaskRecord>, text: string, user: string, difficulty: DifficultyKey,
    embed: string -> Vector, norm: Vector -> real)
    : (p: Prediction)
    requires DonorsHaveDim(store, user, |embed(text)|)
    ensures p.predictionMethod == WarmStart <==> p.similarTasks != []
    ensures p.confidence == High <==> p.predictionMethod == WarmStart
    ensures |p.similarTasks| <= TopK
    ensures p.predictionMethod == ColdStart ==> p.predictedTime == ColdStartPrediction(difficulty)
    ensures p.predictionMethod == WarmStart ==>
      MinTime(p.similarTasks) <= p.predictedTime <= MaxTime(p.similarTasks)
    ensures p.predictionMethod == WarmStart ==>
      TotalSimilarity(p.similarTasks) > 0.0 && Some(p.predictedTime) == WarmStartPrediction(p.similarTasks)
  {
    var similar := FindSimilar(store, text, user, DefaultThreshold, embed, norm);
    HitsArePositive(similar);
    if similar != [] then
      Prediction(WarmStart, WarmStartPrediction(similar).value, High, similar)
    else
      Prediction(ColdStart, ColdStartPrediction(difficulty), Low, [])
  }

  /** The prediction reports exactly the search's hits, and a user with no completed history always gets a cold start. */
  lemma PredictTimeUsesSearch(
    store: seq<TaskRecord>, text: string, user: string, difficulty: DifficultyKey,
    embed: string -> Vector, norm: Vector -> real)
    requires DonorsHaveDim(store, user, |embed(text)|)
    ensures PredictTime(store, text, user, difficulty, embed, norm).similarTasks
      == FindSimilar(store, text, user, DefaultThreshold, embed, norm)
    ensures !HasDonor(store, user) ==>
      PredictTime(store, text, user, difficulty, embed, norm) == Prediction(ColdStart, ColdStartPrediction(difficulty), Low, [])
  {
  }
}

=== FILE: json.dfy ===
/**
 * Decoded JSON request values, as the Flask handlers and the CLI see them
 * after `json.loads`: Python's None, bool, int, str, list and dict.
 * JSON numbers with a fraction part are not modelled.
 */
module Json {
  import opened Wrappers

  datatype Value =
    | JNull
    | JBool(b: bool)
    | JInt(i: int)
    | JStr(s: string)
    | JArr(items: seq<Value>)
    | JObj(fields: map<string, Value>)

  /** Python truthiness: None, False, 0, "", [] and {} are false, everything else is true. */
  predicate Truthy(v: Value) {
    match v
    case JNull => false
    case JBool(b) => b
    case JInt(i) => i != 0
    case JStr(s) => |s| > 0
    case JArr(items) => |items| > 0
    case JObj(fields) => |fields| > 0
  }

  /** `d.get(key)`: the bound value, or None when the key is absent. */
  function Get(d: map<string, Value>, key: string): (v: Value)
    ensures key !in d ==> v == JNull
    ensures key in d ==> v == d[key]
  {
    if key in d then d[key] else JNull
  }

  /** `d.get(key, default)`. */
  function GetOr(d: map<string, Value>, key: string, default: Value): (v: Value)
    ensures key !in d ==> v == default
    ensures key in d ==> v == d[key]
  {
    if key in d then d[key] else default
  }

  /** The value as a Python int when it is one (a bool is an int subclass: True is 1, False is 0). */
  function AsInt(v: Value): (n: Option<int>)
    ensures n.Some? <==> v.JInt? || v.JBool?
  {
    match v
    case JInt(i) => Some(i)
    case JBool(b) => Some(if b then 1 else 0)
    case _ => None
  }
}

=== FILE: mcdm.dfy ===
/**
 * The Multi-Criteria Decision Making priority scorer: step and piecewise
 * scores for urgency, impact and difficulty on a 0–100 scale, their fixed
 * weighted combination, and the High/Medium/Low label.
 *
 * Python floats are modelled as exact reals, so `credits * (weight / 100)`
 * and `0.50 * u + 0.30 * i + 0.20 * d` carry no rounding error here.
 */
module Mcdm {

  // ---------------------------------------------------------------------
  // Urgency
  // ---------------------------------------------------------------------

  /** Urgency from the days left until the deadline; overdue (negative) counts as the most urgent bucket. */
  function Urgency(daysLeft: int): (u: int)
    ensures u == 20 || u == 40 || u == 60 || u == 80 || u == 100
    ensures u == 100 <==> daysLeft <= 1
    ensures u == 20 <==> daysLeft > 14
  {
    if daysLeft <= 1 then 100
    else if daysLeft <= 3 then 80
    else if daysLeft <= 7 then 60
    else if daysLeft <= 14 then 40
    else 20
  }

  /** The urgency bucket boundaries, nearest deadline first. */
  const UrgencyThresholds: seq<int> := [1, 3, 7, 14]

  /** How many of the thresholds `daysLeft` lies beyond. */
  function ThresholdsPassed(daysLeft: int, thresholds: seq<int>): nat {
    if |thresholds| == 0 then 0
    else (if daysLeft > thresholds[0] then 1 else 0) + ThresholdsPassed(daysLeft, thresholds[1..])
  }

  /** Each threshold passed costs exactly one 20-point step, from 100 down to 20. */
  lemma UrgencyLosesTwentyPerThreshold(daysLeft: int)
    ensures Urgency(daysLeft) == 100 - 20 * ThresholdsPassed(daysLeft, UrgencyThresholds)
  {
    var t := UrgencyThresholds;
    assert t[1..] == [3, 7, 14] && t[1..][1..] == [7, 14] && t[1..][1..][1..] == [14];
    assert ThresholdsPassed(daysLeft, [14]) == (if daysLeft > 14 then 1 else 0);
    assert ThresholdsPassed(daysLeft, [7, 14]) == (if daysLeft > 7 then 1 else 0) + ThresholdsPassed(daysLeft, [14]);
    assert ThresholdsPassed(daysLeft, [3, 7, 14]) == (if daysLeft > 3 then 1 else 0) + ThresholdsPassed(daysLeft, [7, 14]);
  }

  /** A later deadline is never more urgent. */
  lemma UrgencyNonIncreasing(a: int, b: int)
    requires a <= b
    ensures Urgency(a) >= Urgency(b)
  {
  }

  // ---------------------------------------------------------------------
  // Impact
  // ---------------------------------------------------------------------

  /** `credits * (weight_percentage / 100)`. */
  function RawImpact(credits: int, weightPercentage: int): real {
    credits as real * (weightPercentage as real / 100.0)
  }

  /** Python's `int(x)`: truncation toward zero. */
  function Trunc(x: real): (n: int)
    ensures x >= 0.0 ==> n as real <= x < n as real + 1.0
    ensures x < 0.0 ==> n as real - 1.0 < x <= n as real
  {
    if x >= 0.0 then x.Floor else -((-x).Floor)
  }

  /** The impact cascade on a raw impact value. */
  function ImpactOfRaw(raw: real): (s: int)
    ensures 10 <= s <= 100
    ensures 0.2 <= raw < 0.5 ==> 10 <= s <= 24
  {
    if raw >= 2.0 then 100
    else if raw >= 1.5 then 90
    else if raw >= 1.0 then 75
    else if raw >= 0.5 then 50
    else if raw < 0.2 then 10
    else Trunc(raw * 50.0)
  }

  /** The impact score of an assignment worth `weightPercentage` percent of a `credits`-credit module. */
  function Impact(credits: int, weightPercentage: int): (s: int)
    ensures 10 <= s <= 100
  {
    ImpactOfRaw(RawImpact(credits, weightPercentage))
  }

  /**
   * An integer reference for the impact cascade, on the product
   * `p = credits * weight_percentage` (so raw impact is p / 100):
   * thresholds 200, 150, 100, 50, 20 and the in-between band p / 2.
   */
  function ImpactScaled(p: int): int {
    if p >= 200 then 100
    else if p >= 150 then 90
    else if p >= 100 then 75
    else if p >= 50 then 50
    else if p < 20 then 10
    else p / 2
  }

  /** The impact score depends only on `credits * weight_percentage`, through the integer cascade. */
  lemma ImpactMatchesScaled(credits: int, weightPercentage: int)
    ensures Impact(credits, weightPercentage) == ImpactScaled(credits * weightPercentage)
  {
    var p := credits * weightPercentage;
    var raw := RawImpact(credits, weightPercentage);
    assert raw == p as real / 100.0;
    if 20 <= p < 50 {
      assert raw * 50.0 == p as real / 2.0;
      assert (p / 2) as real <= p as real / 2.0 < (p / 2) as real + 1.0;
    }
  }

  /** More credit-weight never lowers the impact. */
  lemma ImpactScaledMonotone(p: int, q: int)
    requires p <= q
    ensures ImpactScaled(p) <= ImpactScaled(q)
  {
  }

  /** Impact is non-decreasing in `credits * weight_percentage`. */
  lemma ImpactMonotone(c1: int, w1: int, c2: int, w2: int)
    requires c1 * w1 <= c2 * w2
    ensures Impact(c1, w1) <= Impact(c2, w2)
  {
    ImpactMatchesScaled(c1, w1);
    ImpactMatchesScaled(c2, w2);
    ImpactScaledMonotone(c1 * w1, c2 * w2);
  }

  /** The interpolated band takes every value from 10 to 24 and only those. */
  lemma ImpactBandValues(credits: int, weightPercentage: int)
    requires 20 <= credits * weightPercentage < 50
    ensures Impact(credits, weightPercentage) == (credits * weightPercentage) / 2
    ensures 10 <= Impact(credits, weightPercentage) <= 24
  {
    ImpactMatchesScaled(credits, weightPercentage);
  }

  // ---------------------------------------------------------------------
  // Difficulty, final score, label
  // ---------------------------------------------------------------------

  /** A 1–5 rating stretched to the 0–100 scale; ratings outside 1–5 are not clamped. */
  function DifficultyScore(rating: int): (s: int)
    ensures s % 20 == 0 && s / 20 == rating
    ensures 1 <= rating <= 5 <==> 20 <= s <= 100
  {
    rating * 20
  }

  function Min3(a: int, b: int, c: int): int {
    if a <= b && a <= c then a else if b <= c then b else c
  }

  function Max3(a: int, b: int, c: int): int {
    if a >= b && a >= c then a else if b >= c then b else c
  }

  /** The weighted MCDM score: urgency 50%, impact 30%, difficulty 20%. */
  function FinalScore(urgency: int, impact: int, difficulty: int): (f: real)
    ensures Min3(urgency, impact, difficulty) as real <= f <= Max3(urgency, impact, difficulty) as real
    ensures urgency == impact == difficulty ==> f == urgency as real
  {
    urgency as real * 0.50 + impact as real * 0.30 + difficulty as real * 0.20
  }

  /** The weights are 0.5, 0.3 and 0.2 and the score is additive: together, the fixed affine combination. */
  lemma FinalScoreIsWeightedSum(u1: int, i1: int, d1: int, u2: int, i2: int, d2: int)
    ensures FinalScore(1, 0, 0) == 0.5 && FinalScore(0, 1, 0) == 0.3 && FinalScore(0, 0, 1) == 0.2
    ensures FinalScore(u1 + u2, i1 + i2, d1 + d2) == FinalScore(u1, i1, d1) + FinalScore(u2, i2, d2)
  {
  }

  /** Scores on the 0–100 scale give a final score on the 0–100 scale, with both ends reached. */
  lemma FinalScoreRange(urgency: int, impact: int, difficulty: int)
    requires 0 <= urgency <= 100 && 0 <= impact <= 100 && 0 <= difficulty <= 100
    ensures 0.0 <= FinalScore(urgency, impact, difficulty) <= 100.0
    ensures FinalScore(100, 100, 100) == 100.0 && FinalScore(0, 0, 0) == 0.0
  {
  }

  datatype Priority = High | Medium | Low {
    /** The label string `get_priority_label` returns. */
    function Name(): string {
      match this
      case High => "High"
      case Medium => "Medium"
      case Low => "Low"
    }

    /** Low < Medium < High. */
    function Rank(): nat {
      match this
      case High => 2
      case Medium => 1
      case Low => 0
    }
  }

  /** The priority label; both boundaries (70 and 40) belong to the higher label. */
  function Label(finalScore: real): (p: Priority)
    ensures p == High <==> finalScore >= 70.0
    ensures p == Medium <==> 40.0 <= finalScore < 70.0
    ensures p == Low <==> finalScore < 40.0
  {
    if finalScore >= 70.0 then High
    else if finalScore >= 40.0 then Medium
    else Low
  }

  /** A higher score never gets a lower label. */
  lemma LabelMonotone(a: real, b: real)
    requires a <= b
    ensures Label(a).Rank() <= Label(b).Rank()
  {
  }

  // ---------------------------------------------------------------------
  // The whole calculation
  // ---------------------------------------------------------------------

  datatype Scores = Scores(urgency: int, impact: int, difficulty: int, final: real, priority: Priority)

  /** `validate_mcdm_calculation`: the five scoring steps composed. */
  function ValidateMcdm(daysLeft: int, credits: int, weightPercentage: int, rating: int): (s: Scores)
    ensures s.urgency == Urgency(daysLeft)
    ensures s.impact == Impact(credits, weightPercentage)
    ensures s.difficulty == DifficultyScore(rating)
    ensures s.final == FinalScore(s.urgency, s.impact, s.difficulty)
    ensures s.priority == Label(s.final)
    ensures 1 <= rating <= 5 ==> 17.0 <= s.final <= 100.0
  {
    var u := Urgency(daysLeft);
    var i := Impact(credits, weightPercentage);
    var d := DifficultyScore(rating);
    var f := FinalScore(u, i, d);
    Scores(u, i, d, f, Label(f))
  }

  /** One day left, 4 credits at 100%, hardest rating: every score is 100 and the label is High. */
  lemma ValidateMcdmMaximum()
    ensures ValidateMcdm(1, 4, 100, 5) == Scores(100, 100, 100, 100.0, High)
  {
  }

  /** A deadline more than two weeks away can never be High priority for a rating in 1–5. */
  lemma DistantDeadlineNeverHigh(daysLeft: int, credits: int, weightPercentage: int, rating: int)
    requires daysLeft > 14 && 1 <= rating <= 5
    ensures ValidateMcdm(daysLeft, credits, weightPercentage, rating).priority != High
  {
  }

  /** A deadline at most one day away (or past) is never Low priority for a rating in 1–5. */
  lemma ImminentDeadlineNeverLow(daysLeft: int, credits: int, weightPercentage: int, rating: int)
    requires daysLeft <= 1 && 1 <= rating <= 5
    ensures ValidateMcdm(daysLeft, credits, weightPercentage, rating).priority != Low
  {
  }
}

=== FILE: search.dfy ===
/**
 * `find_similar_tasks`: the k-nearest-neighbour search over one user's
 * completed history. Candidates are the user's donor records whose cosine
 * similarity to the query reaches the threshold, in store order; they are
 * ranked by a stable descending sort and cut to the top five.
 */
module Search {
  import opened Similarity
  import opened TaskStore

  /** One search hit, as handed to the time predictor. */
  datatype Match = Match(description: string, similarity: real, actualTime: int, category: string)

  const DefaultThreshold: real := 0.65

  const TopK: nat := 5

  /** Every donor of `user` has vectors of dimension `dim` (numpy raises on a mismatch). */
  predicate DonorsHaveDim(store: seq<TaskRecord>, user: string, dim: nat) {
    forall i :: 0 <= i < |store| && IsDonor(store[i], user) ==> |store[i].subTask.vector| == dim
  }

  predicate HasDonor(store: seq<TaskRecord>, user: string) {
    exists i :: 0 <= i < |store| && IsDonor(store[i], user)
  }

  /** The hit a donor record produces for `query`. */
  function MatchOf(r: TaskRecord, query: Vector, norm: Vector -> real): Match
    requires r.estimates.actualTime.Some? && |r.subTask.vector| == |query|
  {
    Match(r.subTask.description, Cosine(query, r.subTask.vector, norm), r.estimates.actualTime.value, r.subTask.category)
  }

  /** The donor hits that reach the threshold, in store order. */
  function Candidates(store: seq<TaskRecord>, user: string, query: Vector, threshold: real, norm: Vector -> real)
    : seq<Match>
    requires DonorsHaveDim(store, user, |query|)
  {
    if |store| == 0 then []
    else
      assert DonorsHaveDim(store[1..], user, |query|) by {
        forall i | 0 <= i < |store[1..]| && IsDonor(store[1..][i], user)
          ensures |store[1..][i].subTask.vector| == |query|
        {
          assert store[1..][i] == store[i + 1];
        }
      }
      var rest := Candidates(store[1..], user, query, threshold, norm);
      if IsDonor(store[0], user) && MatchOf(store[0], query, norm).similarity >= threshold
      then [MatchOf(store[0], query, norm)] + rest
      else rest
  }

  /** A hit is a candidate exactly when some donor record produces it at or above the threshold. */
  lemma {:induction false} CandidatesMembership(
    store: seq<TaskRecord>, user: string, query: Vector, threshold: real, norm: Vector -> real, m: Match)
    requires DonorsHaveDim(store, user, |query|)
    ensures m in Candidates(store, user, query, threshold, norm) <==>
      exists i :: 0 <= i < |store| && IsDonor(store[i], user) && m == MatchOf(store[i], query, norm) && m.similarity >= threshold
  {
    if |store| > 0 {
      assert DonorsHaveDim(store[1..], user, |query|) by {
        forall i | 0 <= i < |store[1..]| && IsDonor(store[1..][i], user)
          ensures |store[1..][i].subTask.vector| == |query|
        {
          assert store[1..][i] == store[i + 1];
        }
      }
      CandidatesMembership(store[1..], user, query, threshold, norm, m);
      if exists i :: 0 <= i < |store| && IsDonor(store[i], user) && m == MatchOf(store[i], query, norm) && m.similarity >= threshold {
        var i :| 0 <= i < |store| && IsDonor(store[i], user) && m == MatchOf(store[i], query, norm) && m.similarity >= threshold;
        if i > 0 {
          assert store[1..][i - 1] == store[i];
        }
      }
      if exists i :: 0 <= i < |store[1..]| && IsDonor(store[1..][i], user) && m == MatchOf(store[1..][i], query, norm) && m.similarity >= threshold {
        var i :| 0 <= i < |store[1..]| && IsDonor(store[1..][i], user) && m == MatchOf(store[1..][i], query, norm) && m.similarity >= threshold;
        assert store[1..][i] == store[i + 1];
      }
    }
  }

  /** Records that are not donors contribute no candidates, wherever they sit. */
  lemma {:induction false} CandidatesAppendNonDonors(
    store: seq<TaskRecord>, extra: seq<TaskRecord>, user: string, query: Vector, threshold: real, norm: Vector -> real)
    requires DonorsHaveDim(store, user, |query|)
    requires forall k :: 0 <= k < |extra| ==> !IsDonor(extra[k], user)
    ensures DonorsHaveDim(store + extra, user, |query|)
    ensures Candidates(store + extra, user, query, threshold, norm) == Candidates(store, user, query, threshold, norm)
  {
    var all := store + extra;
    assert forall k :: 0 <= k < |extra| ==> all[|store| + k] == extra[k];
    assert forall i :: 0 <= i < |store| ==> all[i] == store[i];
    if |store| == 0 {
      assert all == extra;
      NonDonorsNoCandidates(extra, user, query, threshold, norm);
    } else {
      assert all[1..] == store[1..] + extra;
      assert DonorsHaveDim(store[1..], user, |query|) by {
        forall i | 0 <= i < |store[1..]| && IsDonor(store[1..][i], user)
          ensures |store[1..][i].subTask.vector| == |query|
        {
          assert store[1..][i] == store[i + 1];
        }
      }
      CandidatesAppendNonDonors(store[1..], extra, user, query, threshold, norm);
    }
  }

  lemma {:induction false} NonDonorsNoCandidates(
    store: seq<TaskRecord>, user: string, query: Vector, threshold: real, norm: Vector -> real)
    requires forall k :: 0 <= k < |store| ==> !IsDonor(store[k], user)
    ensures DonorsHaveDim(store, user, |query|)
    ensures Candidates(store, user, query, threshold, norm) == []
  {
    if |store| > 0 {
      assert forall k :: 0 <= k < |store[1..]| ==> store[1..][k] == store[k + 1];
      NonDonorsNoCandidates(store[1..], user, query, threshold, norm);
    }
  }

  // ---------------------------------------------------------------------
  // Stable descending sort by similarity (Python's list.sort(reverse=True))
  // ---------------------------------------------------------------------

  predicate SortedBySimilarity(ms: seq<Match>) {
    forall i, j :: 0 <= i < j < |ms| ==> ms[i].similarity >= ms[j].similarity
  }

  /** Puts `m` before the first element it is at least as similar as. */
  function Insert(m: Match, ms: seq<Match>): (r: seq<Match>)
    ensures multiset(r) == multiset(ms) + multiset{m}
  {
    if |ms| == 0 || m.similarity >= ms[0].similarity then [m] + ms
    else
      assert ms == [ms[0]] + ms[1..];
      [ms[0]] + Insert(m, ms[1..])
  }

  /** Inserting into a sorted sequence keeps it sorted. */
  lemma {:induction false} InsertSorted(m: Match, ms: seq<Match>)
    requires SortedBySimilarity(ms)
    ensures SortedBySimilarity(Insert(m, ms))
  {
    if |ms| > 0 && m.similarity < ms[0].similarity {
      var x := ms[0];
      var rest := ms[1..];
      var tail := Insert(m, rest);
      var r := [x] + tail;
      assert Insert(m, ms) == r;
      assert SortedBySimilarity(rest);
      InsertSorted(m, rest);
      forall k | 0 <= k < |tail|
        ensures x.similarity >= tail[k].similarity
      {
        BoundedBySortedHead(x, m, rest, tail[k]);
      }
    }
  }

  lemma BoundedBySortedHead(x: Match, m: Match, rest: seq<Match>, e: Match)
    requires SortedBySimilarity([x] + rest)
    requires m.similarity < x.similarity
    requires e in multiset(Insert(m, rest))
    ensures x.similarity >= e.similarity
  {
    var all := [x] + rest;
    if e != m {
      assert multiset(Insert(m, rest)) == multiset(rest) + multiset{m};
      assert e in multiset(rest);
      var j :| 0 <= j < |rest| && rest[j] == e;
      assert all[0] == x && all[j + 1] == e;
      assert all[0].similarity >= all[j + 1].similarity;
    }
  }

  /** Insertion sort, descending by similarity, taking the elements from the front. */
  function SortBySimilarity(ms: seq<Match>): (r: seq<Match>)
    ensures multiset(r) == multiset(ms)
    ensures SortedBySimilarity(r)
  {
    if |ms| == 0 then []
    else
      assert ms == [ms[0]] + ms[1..];
      var sortedTail := SortBySimilarity(ms[1..]);
      InsertSorted(ms[0], sortedTail);
      Insert(ms[0], sortedTail)
  }

  /** The elements with similarity exactly `s`, in order. */
  function WithSimilarity(ms: seq<Match>, s: real): seq<Match> {
    if |ms| == 0 then []
    else (if ms[0].similarity == s then [ms[0]] else []) + WithSimilarity(ms[1..], s)
  }

  lemma WithSimilarityCons(x: Match, l: seq<Match>, s: real)
    ensures WithSimilarity([x] + l, s) == (if x.similarity == s then [x] else []) + WithSimilarity(l, s)
  {
    assert ([x] + l)[0] == x && ([x] + l)[1..] == l;
  }

  lemma {:induction false} WithSimilarityAppend(a: seq<Match>, b: seq<Match>, s: real)
    ensures WithSimilarity(a + b, s) == WithSimilarity(a, s) + WithSimilarity(b, s)
  {
    if |a| == 0 {
      assert a + b == b;
    } else {
      assert a + b == [a[0]] + (a[1..] + b);
      assert a == [a[0]] + a[1..];
      WithSimilarityCons(a[0], a[1..] + b, s);
      WithSimilarityCons(a[0], a[1..], s);
      WithSimilarityAppend(a[1..], b, s);
    }
  }

  /** Two heads, at most one of them non-empty, commute in front of a tail. */
  lemma SwapHeads(hx: seq<Match>, hm: seq<Match>, w: seq<Match>)
    requires hx == [] || hm == []
    ensures hx + (hm + w) == hm + (hx + w)
  {
    if hx == [] {
      assert hx + (hm + w) == hm + w == hm + (hx + w);
    } else {
      assert hx + (hm + w) == hx + w == hm + (hx + w);
    }
  }

  /** Insertion moves `m` only past strictly more similar elements, so no tie changes order. */
  lemma {:induction false} InsertStable(m: Match, ms: seq<Match>, s: real)
    ensures WithSimilarity(Insert(m, ms), s) == WithSimilarity([m] + ms, s)
  {
    if |ms| > 0 && m.similarity < ms[0].similarity {
      var x := ms[0];
      var rest := ms[1..];
      var tail := Insert(m, rest);
      assert Insert(m, ms) == [x] + tail;
      assert ms == [x] + rest;
      InsertStable(m, rest, s);
      WithSimilarityCons(x, tail, s);
      WithSimilarityCons(m, rest, s);
      WithSimilarityCons(x, rest, s);
      WithSimilarityCons(m, ms, s);
      SwapHeads(if x.similarity == s then [x] else [], if m.similarity == s then [m] else [], WithSimilarity(rest, s));
    }
  }

  /** The sort is stable: among equally similar hits, the input order survives. */
  lemma {:induction false} SortStable(ms: seq<Match>, s: real)
    ensures WithSimilarity(SortBySimilarity(ms), s) == WithSimilarity(ms, s)
  {
    if |ms| > 0 {
      var sortedTail := SortBySimilarity(ms[1..]);
      InsertStable(ms[0], sortedTail, s);
      WithSimilarityCons(ms[0], sortedTail, s);
      SortStable(ms[1..], s);
      WithSimilarityCons(ms[0], ms[1..], s);
      assert ms == [ms[0]] + ms[1..];
    }
  }

  lemma {:induction false} WithSimilarityPrefix(ms: seq<Match>, k: nat, s: real)
    requires k <= |ms|
    ensures exists rest :: WithSimilarity(ms, s) == WithSimilarity(ms[..k], s) + rest
  {
    assert ms == ms[..k] + ms[k..];
    WithSimilarityAppend(ms[..k], ms[k..], s);
  }

  // ---------------------------------------------------------------------
  // find_similar_tasks
  // ---------------------------------------------------------------------

  function Min(a: int, b: int): int {
    if a <= b then a else b
  }

  /** The ranked candidates for `query`, before the top-k cut. */
  function Ranked(store: seq<TaskRecord>, user: string, query: Vector, threshold: real, norm: Vector -> real)
    : seq<Match>
    requires DonorsHaveDim(store, user, |query|)
  {
    SortBySimilarity(Candidates(store, user, query, threshold, norm))
  }

  /**
   * `find_similar_tasks(text, user_id, threshold)`: no donor history gives
   * no hits; otherwise the top five ranked candidates.
   */
  function FindSimilar(
    store: seq<TaskRecord>, text: string, user: string, threshold: real,
    embed: string -> Vector, norm: Vector -> real)
    : (r: seq<Match>)
    requires DonorsHaveDim(store, user, |embed(text)|)
    ensures |r| <= TopK
    ensures SortedBySimilarity(r)
    ensures forall k :: 0 <= k < |r| ==> r[k].similarity >= threshold
    ensures !HasDonor(store, user) ==> r == []
  {
    var query := embed(text);
    if !HasDonor(store, user) then []
    else
      var ranked := Ranked(store, user, query, threshold, norm);
      var r := ranked[..Min(TopK, |ranked|)];
      assert forall k :: 0 <= k < |r| ==> r[k] in multiset(ranked);
      forall k | 0 <= k < |r|
        ensures r[k].similarity >= threshold
      {
        assert r[k] in multiset(Candidates(store, user, query, threshold, norm));
        CandidatesMembership(store, user, query, threshold, norm, r[k]);
      }
      r
  }

  /** Every hit comes from one of the user's donor records and reaches the threshold. */
  lemma FindSimilarSound(
    store: seq<TaskRecord>, text: string, user: string, threshold: real,
    embed: string -> Vector, norm: Vector -> real, k: nat)
    requires DonorsHaveDim(store, user, |embed(text)|)
    requires k < |FindSimilar(store, text, user, threshold, embed, norm)|
    ensures exists i :: (0 <= i < |store| && IsDonor(store[i], user)
      && FindSimilar(store, text, user, threshold, embed, norm)[k] == MatchOf(store[i], embed(text), norm))
  {
    var query := embed(text);
    var ranked := Ranked(store, user, query, threshold, norm);
    var m := FindSimilar(store, text, user, threshold, embed, norm)[k];
    assert m == ranked[k];
    assert m in multiset(Candidates(store, user, query, threshold, norm));
    CandidatesMembership(store, user, query, threshold, norm, m);
  }

  /** A prefix of a sorted sequence holds its most similar elements. */
  lemma SortedPrefixBest(ranked: seq<Match>, n: nat)
    requires SortedBySimilarity(ranked) && n <= |ranked|
    ensures forall c, k :: c in ranked && c !in ranked[..n] && 0 <= k < n ==> c.similarity <= ranked[k].similarity
  {
    forall c, k | c in ranked && c !in ranked[..n] && 0 <= k < n
      ensures c.similarity <= ranked[k].similarity
    {
      var j :| 0 <= j < |ranked| && ranked[j] == c;
    }
  }

  /**
   * The search keeps the best hits: it returns min(5, #candidates) of them,
   * and a candidate left out is no more similar than any hit returned.
   */
  lemma FindSimilarKeepsBest(
    store: seq<TaskRecord>, text: string, user: string, threshold: real,
    embed: string -> Vector, norm: Vector -> real)
    requires DonorsHaveDim(store, user, |embed(text)|)
    ensures
      var cands := Candidates(store, user, embed(text), threshold, norm);
      var r := FindSimilar(store, text, user, threshold, embed, norm);
      && |r| == Min(TopK, |cands|)
      && multiset(r) <= multiset(cands)
      && forall c, k :: c in cands && c !in r && 0 <= k < |r| ==> c.similarity <= r[k].similarity
  {
    var query := embed(text);
    var cands := Candidates(store, user, query, threshold, norm);
    var r := FindSimilar(store, text, user, threshold, embed, norm);
    if !HasDonor(store, user) {
      if |cands| > 0 {
        CandidatesMembership(store, user, query, threshold, norm, cands[0]);
      }
    } else {
      PrefixKeepsBest(Ranked(store, user, query, threshold, norm), cands, r);
    }
  }

  /** The first min(5, n) entries of a sorted permutation of the candidates are a best selection of them. */
  lemma PrefixKeepsBest(ranked: seq<Match>, cands: seq<Match>, r: seq<Match>)
    requires multiset(ranked) == multiset(cands) && SortedBySimilarity(ranked)
    requires r == ranked[..Min(TopK, |ranked|)]
    ensures |r| == Min(TopK, |cands|)
    ensures multiset(r) <= multiset(cands)
    ensures forall c, k :: c in cands && c !in r && 0 <= k < |r| ==> c.similarity <= r[k].similarity
  {
    var n := Min(TopK, |ranked|);
    assert |ranked| == |multiset(ranked)| == |multiset(cands)| == |cands|;
    assert ranked == r + ranked[n..];
    assert multiset(ranked) == multiset(r) + multiset(ranked[n..]);
    assert forall c :: c in cands ==> c in multiset(ranked);
    SortedPrefixBest(ranked, n);
  }

  /**
   * Ties keep store order: for every similarity value, the hits with that
   * value are the first candidates with that value, in store order.
   */
  lemma FindSimilarStable(
    store: seq<TaskRecord>, text: string, user: string, threshold: real,
    embed: string -> Vector, norm: Vector -> real, s: real)
    requires DonorsHaveDim(store, user, |embed(text)|)
    ensures exists rest ::
      WithSimilarity(Candidates(store, user, embed(text), threshold, norm), s)
      == WithSimilarity(FindSimilar(store, text, user, threshold, embed, norm), s) + rest
  {
    var query := embed(text);
    var cands := Candidates(store, user, query, threshold, norm);
    var ranked := Ranked(store, user, query, threshold, norm);
    SortStable(cands, s);
    if !HasDonor(store, user) {
      assert WithSimilarity([], s) == [];
      assert WithSimilarity(cands, s) == WithSimilarity([], s) + WithSimilarity(cands, s);
    } else {
      WithSimilarityPrefix(ranked, Min(TopK, |ranked|), s);
    }
  }

  /** Newly scheduled records are not donors, so saving predictions never changes a search. */
  lemma FindSimilarIgnoresScheduled(
    store: seq<TaskRecord>, extra: seq<TaskRecord>, text: string, user: string, threshold: real,
    embed: string -> Vector, norm: Vector -> real)
    requires DonorsHaveDim(store, user, |embed(text)|)
    requires forall k :: 0 <= k < |extra| ==> extra[k].status == Scheduled
    ensures DonorsHaveDim(store + extra, user, |embed(text)|)
    ensures FindSimilar(store + extra, text, user, threshold, embed, norm) == FindSimilar(store, text, user, threshold, embed, norm)
  {
    CandidatesAppendNonDonors(store, extra, user, embed(text), threshold, norm);
    var all := store + extra;
    assert forall k :: 0 <= k < |extra| ==> all[|store| + k] == extra[k];
    assert forall i :: 0 <= i < |store| ==> all[i] == store[i];
    if HasDonor(store, user) {
      var i :| 0 <= i < |store| && IsDonor(store[i], user);
      assert all[i] == store[i];
    }
  }
}

=== FILE: similarity.dfy ===
/**
 * Cosine similarity between embedding vectors. The Euclidean norm (a square
 * root in numpy) is kept abstract: it is passed in as a function, and the
 * lemmas that need it to be a norm say so (`norm(v) * norm(v) == Dot(v, v)`).
 */
module Similarity {

  type Vector = seq<real>

  /** `np.dot` on two vectors of one dimension. */
  function Dot(a: Vector, b: Vector): real
    requires |a| == |b|
  {
    if |a| == 0 then 0.0 else a[0] * b[0] + Dot(a[1..], b[1..])
  }

  /** `norm` behaves as the Euclidean norm at `v`: non-negative, zero exactly for a zero square sum, squaring to `Dot(v, v)`. */
  predicate IsNormAt(norm: Vector -> real, v: Vector) {
    && norm(v) >= 0.0
    && (norm(v) == 0.0 <==> Dot(v, v) == 0.0)
    && norm(v) * norm(v) == Dot(v, v)
  }

  lemma DivideBySelf(x: real)
    requires x != 0.0
    ensures x / x == 1.0
  {
  }

  /** Cosine similarity; 0.0 (and no division) when either vector has norm zero. */
  function Cosine(a: Vector, b: Vector, norm: Vector -> real): (c: real)
    requires |a| == |b|
    ensures norm(a) == 0.0 || norm(b) == 0.0 ==> c == 0.0
    ensures norm(a) != 0.0 && norm(b) != 0.0 ==> c * (norm(a) * norm(b)) == Dot(a, b)
  {
    if norm(a) == 0.0 || norm(b) == 0.0 then 0.0 else Dot(a, b) / (norm(a) * norm(b))
  }

  lemma {:induction false} DotSymmetric(a: Vector, b: Vector)
    requires |a| == |b|
    ensures Dot(a, b) == Dot(b, a)
  {
    if |a| > 0 {
      DotSymmetric(a[1..], b[1..]);
    }
  }

  /** Similarity does not depend on the order of its arguments. */
  lemma CosineSymmetric(a: Vector, b: Vector, norm: Vector -> real)
    requires |a| == |b|
    ensures Cosine(a, b, norm) == Cosine(b, a, norm)
  {
    DotSymmetric(a, b);
  }

  /** A vector with a non-zero norm is fully similar to itself. */
  lemma CosineSelf(v: Vector, norm: Vector -> real)
    requires IsNormAt(norm, v) && norm(v) != 0.0
    ensures Cosine(v, v, norm) == 1.0
  {
    var d := Dot(v, v);
    assert d != 0.0;
    assert Cosine(v, v, norm) == d / d;
    DivideBySelf(d);
  }

  lemma {:induction false} DotWithZero(a: Vector, z: Vector)
    requires |a| == |z|
    requires forall i :: 0 <= i < |z| ==> z[i] == 0.0
    ensures Dot(a, z) == 0.0
  {
    if |a| > 0 {
      DotWithZero(a[1..], z[1..]);
    }
  }

  /** Similarity with the zero vector is 0.0 and never a division by zero. */
  lemma CosineWithZeroVector(a: Vector, z: Vector, norm: Vector -> real)
    requires |a| == |z|
    requires forall i :: 0 <= i < |z| ==> z[i] == 0.0
    requires IsNormAt(norm, z)
    ensures Cosine(a, z, norm) == 0.0
  {
    DotWithZero(z, z);
  }
}

=== FILE: task_store.dfy ===
/**
 * The estimator's document collections, held in memory: the task records
 * (one per scheduled or completed subtask) and the per-user training logs.
 * Inserting a batch of predictions, completing a scheduled record and
 * reading the latest accuracy figures are pure state transitions.
 */
module TaskStore {
  import opened Wrappers
  import opened Similarity
  import Json

  datatype Status = Scheduled | Completed

  datatype Method = WarmStart | ColdStart

  datatype Confidence = High | Low

  datatype SubTask = SubTask(description: string, vector: Vector, category: string, position: int)

  datatype Estimates = Estimates(
    predictionMethod: Method,
    systemEstimate: int,
    userEstimate: int,
    actualTime: Option<int>,
    confidence: Confidence)

  /** One stored subtask. Dates are opaque timestamps supplied by a clock. */
  datatype TaskRecord = TaskRecord(
    userId: string,
    mainTask: Json.Value,
    subTask: SubTask,
    estimates: Estimates,
    status: Status,
    createdDate: int,
    completedDate: Option<int>,
    timeAllocationDate: Option<string>)

  /** A prediction as a client hands it back to be stored; optional keys are `None` when absent. */
  datatype SavedPrediction = SavedPrediction(
    subtaskText: string,
    subtaskNumber: int,
    predictionMethod: Method,
    predictedTime: int,
    confidence: Confidence,
    category: Option<string>,
    userEstimate: Option<int>,
    timeAllocationDate: Option<string>)

  const DefaultCategory: string := "general"

  /** A record the similarity search may learn from: the user's, completed, with an actual time. */
  predicate IsDonor(r: TaskRecord, user: string) {
    r.userId == user && r.status == Completed && r.estimates.actualTime.Some?
  }

  // ---------------------------------------------------------------------
  // save_task
  // ---------------------------------------------------------------------

  /** `rec` is the document inserted for `pred`: scheduled, no actual time, defaults filled in. */
  predicate IsInsertedFor(
    rec: TaskRecord, pred: SavedPrediction, user: string, mainTask: Json.Value,
    embed: string -> Vector, created: int)
  {
    && rec.userId == user
    && rec.mainTask == mainTask
    && rec.subTask.description == pred.subtaskText
    && rec.subTask.vector == embed(pred.subtaskText)
    && rec.subTask.category == (if pred.category.Some? then pred.category.value else DefaultCategory)
    && rec.subTask.position == pred.subtaskNumber
    && rec.estimates.predictionMethod == pred.predictionMethod
    && rec.estimates.systemEstimate == pred.predictedTime
    && rec.estimates.userEstimate == (if pred.userEstimate.Some? then pred.userEstimate.value else pred.predictedTime)
    && rec.estimates.actualTime.None?
    && rec.estimates.confidence == pred.confidence
    && rec.status == Scheduled
    && rec.createdDate == created
    && rec.completedDate.None?
    && rec.timeAllocationDate == pred.timeAllocationDate
  }

  /**
   * `save_task`: one insert per prediction, in order, after the existing
   * records. The k-th insert is stamped `clock(k)`.
   */
  method SaveTask(
    store: seq<TaskRecord>, mainTask: Json.Value, preds: seq<SavedPrediction>, user: string,
    embed: string -> Vector, clock: nat -> int)
    returns (saved: seq<TaskRecord>)
    ensures |saved| == |store| + |preds|
    ensures saved[..|store|] == store
    ensures forall k :: 0 <= k < |preds| ==> IsInsertedFor(saved[|store| + k], preds[k], user, mainTask, embed, clock(k))
  {
    saved := store;
    var k := 0;
    while k < |preds|
      invariant 0 <= k <= |preds|
      invariant |saved| == |store| + k
      invariant saved[..|store|] == store
      invariant forall j :: 0 <= j < k ==> IsInsertedFor(saved[|store| + j], preds[j], user, mainTask, embed, clock(j))
    {
      var pred := preds[k];
      var doc := TaskRecord(
        user,
        mainTask,
        SubTask(pred.subtaskText, embed(pred.subtaskText), pred.category.GetOr(DefaultCategory), pred.subtaskNumber),
        Estimates(pred.predictionMethod, pred.predictedTime, pred.userEstimate.GetOr(pred.predictedTime), None, pred.confidence),
        Scheduled,
        clock(k),
        None,
        pred.timeAllocationDate);
      saved := saved + [doc];
      k := k + 1;
    }
  }

  // ---------------------------------------------------------------------
  // mark_complete
  // ---------------------------------------------------------------------

  /** The filter of the completion update: this user, this description, still scheduled. */
  predicate AwaitsCompletion(r: TaskRecord, user: string, description: string) {
    r.userId == user && r.subTask.description == description && r.status == Scheduled
  }

  /** The position of the first record the completion filter matches. */
  function FirstAwaiting(store: seq<TaskRecord>, user: string, description: string): (i: Option<nat>)
    ensures i.Some? ==> i.value < |store| && AwaitsCompletion(store[i.value], user, description)
    ensures i.Some? ==> forall j :: 0 <= j < i.value ==> !AwaitsCompletion(store[j], user, description)
    ensures i.None? ==> forall j :: 0 <= j < |store| ==> !AwaitsCompletion(store[j], user, description)
  {
    if |store| == 0 then None
    else if AwaitsCompletion(store[0], user, description) then Some(0)
    else match FirstAwaiting(store[1..], user, description)
      case None => None
      case Some(j) => Some(j + 1)
  }

  /** `b` is `a` with only the completion fields (status, actual time, completion date) possibly changed. */
  predicate SameExceptCompletion(a: TaskRecord, b: TaskRecord) {
    && a.userId == b.userId
    && a.mainTask == b.mainTask
    && a.subTask == b.subTask
    && a.estimates.predictionMethod == b.estimates.predictionMethod
    && a.estimates.systemEstimate == b.estimates.systemEstimate
    && a.estimates.userEstimate == b.estimates.userEstimate
    && a.estimates.confidence == b.estimates.confidence
    && a.createdDate == b.createdDate
    && a.timeAllocationDate == b.timeAllocationDate
  }

  /**
   * `mark_complete`: a conditional update of the first record that matches
   * user, description and `scheduled`; no match is a silent no-op.
   */
  function MarkComplete(store: seq<TaskRecord>, description: string, user: string, actualTime: int, now: int)
    : (updated: seq<TaskRecord>)
    ensures |updated| == |store|
    ensures FirstAwaiting(store, user, description).None? ==> updated == store
    ensures forall j :: 0 <= j < |store| && FirstAwaiting(store, user, description) != Some(j) ==> updated[j] == store[j]
    ensures FirstAwaiting(store, user, description).Some? ==>
      var i := FirstAwaiting(store, user, description).value;
      && SameExceptCompletion(store[i], updated[i])
      && updated[i].status == Completed
      && updated[i].estimates.actualTime == Some(actualTime)
      && updated[i].completedDate == Some(now)
  {
    match FirstAwaiting(store, user, description)
    case None => store
    case Some(i) =>
      var r := store[i];
      store[i := r.(
        estimates := r.estimates.(actualTime := Some(actualTime)),
        status := Completed,
        completedDate := Some(now))]
  }

  /** Completing a record makes it a donor for the same user's later searches. */
  lemma MarkCompleteMakesDonor(store: seq<TaskRecord>, description: string, user: string, actualTime: int, now: int)
    requires FirstAwaiting(store, user, description).Some?
    ensures IsDonor(MarkComplete(store, description, user, actualTime, now)[FirstAwaiting(store, user, description).value], user)
  {
  }

  /** Completion never takes a donor away from any user. */
  lemma MarkCompleteKeepsDonors(store: seq<TaskRecord>, description: string, user: string, actualTime: int, now: int, other: string)
    ensures forall j :: 0 <= j < |store| && IsDonor(store[j], other) ==>
      IsDonor(MarkComplete(store, description, user, actualTime, now)[j], other)
  {
  }

  /**
   * A second identical completion never touches the record the first one
   * completed, so its actual time keeps the first value; when that record was
   * the only match, the second call changes nothing at all.
   */
  lemma MarkCompleteTwice(store: seq<TaskRecord>, description: string, user: string, t1: int, t2: int, now1: int, now2: int)
    requires FirstAwaiting(store, user, description).Some?
    ensures
      var i := FirstAwaiting(store, user, description).value;
      var once := MarkComplete(store, description, user, t1, now1);
      var twice := MarkComplete(once, description, user, t2, now2);
      && twice[i] == once[i]
      && twice[i].estimates.actualTime == Some(t1)
      && ((forall j :: 0 <= j < |store| && j != i ==> !AwaitsCompletion(store[j], user, description)) ==> twice == once)
  {
    var i := FirstAwaiting(store, user, description).value;
    var once := MarkComplete(store, description, user, t1, now1);
    assert !AwaitsCompletion(once[i], user, description);
    if (forall j :: 0 <= j < |store| && j != i ==> !AwaitsCompletion(store[j], user, description)) {
      assert forall j :: 0 <= j < |once| ==> !AwaitsCompletion(once[j], user, description);
    }
  }

  // ---------------------------------------------------------------------
  // get_accuracy
  // ---------------------------------------------------------------------

  /** One entry of the training-log collection. */
  datatype TrainingLog = TrainingLog(
    userId: string, mae: real, accuracyWithin5Min: real, trainingSize: int, trainingDate: int)

  /** What `get_accuracy` reports. */
  datatype Accuracy = Accuracy(mae: real, accuracy5Min: real, trainingSize: int)

  /** The position of the user's most recent log (the earliest such on a tie of dates). */
  function LatestLog(logs: seq<TrainingLog>, user: string): (r: Option<nat>)
    ensures r.None? <==> forall i :: 0 <= i < |logs| ==> logs[i].userId != user
    ensures r.Some? ==> r.value < |logs| && logs[r.value].userId == user
    ensures r.Some? ==> forall j :: 0 <= j < |logs| && logs[j].userId == user ==> logs[j].trainingDate <= logs[r.value].trainingDate
  {
    if |logs| == 0 then None
    else
      var last := |logs| - 1;
      var earlier := LatestLog(logs[..last], user);
      if logs[last].userId == user && (earlier.None? || logs[earlier.value].trainingDate < logs[last].trainingDate)
      then Some(last)
      else
        assert forall j :: 0 <= j < last ==> logs[..last][j] == logs[j];
        earlier
  }

  /** `get_accuracy`: the figures of the user's latest training log, or None when the user has none. */
  function GetAccuracy(logs: seq<TrainingLog>, user: string): (a: Option<Accuracy>)
    ensures a.None? <==> forall i :: 0 <= i < |logs| ==> logs[i].userId != user
    ensures a.Some? ==> exists i :: (
      && 0 <= i < |logs| && logs[i].userId == user
      && (forall j :: 0 <= j < |logs| && logs[j].userId == user ==> logs[j].trainingDate <= logs[i].trainingDate)
      && a.value == Accuracy(logs[i].mae, logs[i].accuracyWithin5Min, logs[i].trainingSize))
  {
    match LatestLog(logs, user)
    case None => None
    case Some(i) => Some(Accuracy(logs[i].mae, logs[i].accuracyWithin5Min, logs[i].trainingSize))
  }
}

=== FILE: text.dfy ===
/**
 * The few pieces of Python's `str` behaviour the core relies on: `strip()`,
 * `startswith`, the first two pieces of `split(sep)`, splitting on single
 * spaces, and decimal rendering of whole numbers.
 */
module Text {
  import opened Wrappers

  /** The characters for which Python's `str.isspace()` holds; `strip()` with no argument removes exactly these. */
  const SpaceChars: set<char> := {
    ' ', '\t', '\n', '\U{B}', '\U{C}', '\r', '\U{1C}', '\U{1D}', '\U{1E}', '\U{1F}', '\U{85}', '\U{A0}',
    '\U{1680}', '\U{2000}', '\U{2001}', '\U{2002}', '\U{2003}', '\U{2004}', '\U{2005}', '\U{2006}',
    '\U{2007}', '\U{2008}', '\U{2009}', '\U{200A}', '\U{2028}', '\U{2029}', '\U{202F}', '\U{205F}', '\U{3000}'
  }

  predicate IsSpace(c: char) {
    c in SpaceChars
  }

  predicate AllSpace(s: string) {
    forall i :: 0 <= i < |s| ==> IsSpace(s[i])
  }

  /** `s.lstrip()`: drops the leading run of whitespace and nothing else (see `TrimLeftSpaces`). */
  function TrimLeft(s: string): (r: string)
    ensures |r| <= |s| && r == s[|s| - |r|..]
  {
    if |s| > 0 && IsSpace(s[0]) then TrimLeft(s[1..]) else s
  }

  /** What `TrimLeft` drops is whitespace, and what it keeps does not start with any. */
  lemma {:induction false} TrimLeftSpaces(s: string)
    ensures AllSpace(s[..|s| - |TrimLeft(s)|])
    ensures TrimLeft(s) == [] || !IsSpace(TrimLeft(s)[0])
  {
    if |s| > 0 && IsSpace(s[0]) {
      TrimLeftSpaces(s[1..]);
      var k := |s| - |TrimLeft(s)|;
      forall i | 0 <= i < k
        ensures IsSpace(s[..k][i])
      {
        if i > 0 {
          assert s[..k][i] == s[1..][..k - 1][i - 1];
        }
      }
    }
  }

  /** `s.rstrip()`: drops the trailing run of whitespace and nothing else (see `TrimRightSpaces`). */
  function TrimRight(s: string): (r: string)
    ensures |r| <= |s| && r == s[..|r|]
  {
    if |s| > 0 && IsSpace(s[|s| - 1]) then TrimRight(s[..|s| - 1]) else s
  }

  /** What `TrimRight` drops is whitespace, and what it keeps does not end with any. */
  lemma {:induction false} TrimRightSpaces(s: string)
    ensures AllSpace(s[|TrimRight(s)|..])
    ensures TrimRight(s) == [] || !IsSpace(TrimRight(s)[|TrimRight(s)| - 1])
  {
    if |s| > 0 && IsSpace(s[|s| - 1]) {
      TrimRightSpaces(s[..|s| - 1]);
      var k := |TrimRight(s)|;
      forall i | 0 <= i < |s| - k
        ensures IsSpace(s[k..][i])
      {
        if i < |s| - 1 - k {
          assert s[k..][i] == s[..|s| - 1][k..][i];
        }
      }
    }
  }

  /** Trimming both sides leaves text that neither starts nor ends with whitespace. */
  lemma TrimmedEnds(s: string)
    ensures var r := TrimRight(TrimLeft(s)); r == [] || (!IsSpace(r[0]) && !IsSpace(r[|r| - 1]))
  {
    var left := TrimLeft(s);
    TrimLeftSpaces(s);
    TrimRightSpaces(left);
    var r := TrimRight(left);
    assert r != [] ==> r[0] == left[0];
  }

  lemma AllSpaceConcat(a: string, b: string)
    ensures AllSpace(a) && AllSpace(b) ==> AllSpace(a + b)
  {
    if AllSpace(a) && AllSpace(b) {
      forall i | 0 <= i < |a + b|
        ensures IsSpace((a + b)[i])
      {
        if i < |a| {
          assert (a + b)[i] == a[i];
        } else {
          assert (a + b)[i] == b[i - |a|];
        }
      }
    }
  }

  /** Trimming both sides leaves nothing exactly when the text is all whitespace. */
  lemma TrimmedEmpty(s: string)
    ensures TrimRight(TrimLeft(s)) == [] <==> AllSpace(s)
  {
    var left := TrimLeft(s);
    var k := |s| - |left|;
    assert s == s[..k] + left;
    assert AllSpace(s) ==> left == [] || IsSpace(left[0]);
    TrimLeftSpaces(s);
    TrimRightSpaces(left);
    assert left[0..] == left;
    AllSpaceConcat(s[..k], left);
  }

  /** The length of the leading run of whitespace. */
  function LeadingSpace(s: string): (n: nat)
    ensures n <= |s| && AllSpace(s[..n])
    ensures n < |s| ==> !IsSpace(s[n])
  {
    TrimLeftSpaces(s);
    assert TrimLeft(s) != [] ==> TrimLeft(s)[0] == s[|s| - |TrimLeft(s)|];
    |s| - |TrimLeft(s)|
  }

  /** `r` occurs in `s` at `k` and only whitespace follows it. */
  predicate PieceAt(s: string, k: nat, r: string) {
    k + |r| <= |s| && s[k..k + |r|] == r && AllSpace(s[k + |r|..])
  }

  /** Trimming both sides keeps one contiguous piece, after what `TrimLeft` drops and before only whitespace. */
  lemma TrimmedPiece(s: string)
    ensures PieceAt(s, |s| - |TrimLeft(s)|, TrimRight(TrimLeft(s)))
  {
    var left := TrimLeft(s);
    TrimRightSpaces(left);
    PrefixOfSuffix(s, |s| - |left|, left, TrimRight(left));
  }

  /** A prefix `r` of the suffix of `s` from `k`, followed there by whitespace only, sits at `k` in `s` with only whitespace after it. */
  lemma PrefixOfSuffix(s: string, k: nat, left: string, r: string)
    requires k <= |s| && left == s[k..]
    requires |r| <= |left| && r == left[..|r|] && AllSpace(left[|r|..])
    ensures PieceAt(s, k, r)
  {
    assert s[k..][..|r|] == s[k..k + |r|];
    assert s[k..][|r|..] == s[k + |r|..];
  }

  /**
   * `s.strip()`: the piece of `s` between its leading and its trailing run of
   * whitespace (see `StripIsPiece`), which neither starts nor ends with whitespace.
   */
  function Strip(s: string): (r: string)
    ensures |r| <= |s|
    ensures r == [] || (!IsSpace(r[0]) && !IsSpace(r[|r| - 1]))
    ensures r == [] <==> AllSpace(s)
    ensures (s == [] || (!IsSpace(s[0]) && !IsSpace(s[|s| - 1]))) ==> r == s
  {
    TrimmedEnds(s);
    TrimmedEmpty(s);
    TrimmedUnchanged(s);
    TrimRight(TrimLeft(s))
  }

  /** Stripping removes exactly the leading and the trailing run of whitespace, and keeps what lies between. */
  lemma StripIsPiece(s: string)
    ensures var n := LeadingSpace(s); var r := Strip(s);
      n + |r| <= |s| && s[n..n + |r|] == r && AllSpace(s[..n]) && AllSpace(s[n + |r|..])
  {
    TrimmedPiece(s);
    assert PieceAt(s, LeadingSpace(s), Strip(s));
  }

  /** Text that neither starts nor ends with whitespace is left as it is. */
  lemma TrimmedUnchanged(s: string)
    ensures (s == [] || (!IsSpace(s[0]) && !IsSpace(s[|s| - 1]))) ==> TrimRight(TrimLeft(s)) == s
  {
    if s != [] && !IsSpace(s[0]) && !IsSpace(s[|s| - 1]) {
      assert TrimLeft(s) == s;
    }
  }

  /** An occurrence inside a slice is an occurrence in the whole text. */
  lemma OccursInSlice(s: string, p: string, a: nat, b: nat, j: int)
    requires a <= b <= |s| && OccursAt(s[a..b], p, j)
    ensures OccursAt(s, p, a + j)
  {
    var t := s[a..b];
    forall i | 0 <= i < |p|
      ensures s[a + j..a + j + |p|][i] == p[i]
    {
      assert t[j..j + |p|][i] == p[i];
    }
  }

  /** A slice of a text without occurrences of `p` has none either. */
  lemma NoOccurrenceInSlice(s: string, p: string, a: nat, b: nat)
    requires a <= b <= |s|
    requires forall j :: 0 <= j && j + |p| <= |s| ==> !OccursAt(s, p, j)
    ensures forall j :: !OccursAt(s[a..b], p, j)
  {
    forall j | OccursAt(s[a..b], p, j)
      ensures false
    {
      OccursInSlice(s, p, a, b, j);
    }
  }

  /** Stripping twice is the same as stripping once. */
  lemma StripIdempotent(s: string)
    ensures Strip(Strip(s)) == Strip(s)
  {
  }

  /** `s.startswith(p)`. */
  predicate StartsWith(s: string, p: string) {
    |p| <= |s| && s[..|p|] == p
  }

  /** `p` occurs in `s` at position `j`. */
  predicate OccursAt(s: string, p: string, j: int) {
    0 <= j && j + |p| <= |s| && s[j..j + |p|] == p
  }

  /** The first position at or after `from` where `p` occurs in `s` (Python's `s.find(p, from)`, with None for -1). */
  function FindFrom(s: string, p: string, from: nat): (r: Option<nat>)
    requires from <= |s|
    ensures r.Some? ==> from <= r.value && OccursAt(s, p, r.value)
    ensures r.Some? ==> forall j :: from <= j < r.value ==> !OccursAt(s, p, j)
    ensures r.None? ==> forall j :: from <= j <= |s| ==> !OccursAt(s, p, j)
    decreases |s| - from
  {
    if OccursAt(s, p, from) then Some(from)
    else if from == |s| then None
    else FindFrom(s, p, from + 1)
  }

  /** The first position where `p` occurs in `s`. */
  function Find(s: string, p: string): (r: Option<nat>)
    ensures r.Some? ==> OccursAt(s, p, r.value) && forall j :: 0 <= j < r.value ==> !OccursAt(s, p, j)
    ensures r.None? ==> forall j :: 0 <= j <= |s| ==> !OccursAt(s, p, j)
  {
    FindFrom(s, p, 0)
  }

  /** `s.split(p)[0]`: everything before the first occurrence of `p`, or all of `s`. */
  function Before(s: string, p: string): (r: string)
    requires |p| > 0  // Python's split rejects an empty separator
    ensures StartsWith(s, r)
    ensures forall j :: 0 <= j < |r| ==> !OccursAt(s, p, j)
    ensures forall j :: 0 <= j && j + |p| <= |r| ==> !OccursAt(r, p, j)
    ensures |r| < |s| ==> OccursAt(s, p, |r|)
  {
    match Find(s, p)
    case None => s
    case Some(i) =>
      PrefixOccurrences(s, i, p);
      s[..i]
  }

  /** An occurrence inside a prefix is an occurrence in the whole string. */
  lemma PrefixOccurrences(s: string, k: nat, p: string)
    requires k <= |s|
    ensures forall j :: OccursAt(s[..k], p, j) ==> OccursAt(s, p, j)
  {
    forall j | OccursAt(s[..k], p, j)
      ensures OccursAt(s, p, j)
    {
      assert s[..k][j..j + |p|] == s[j..j + |p|];
    }
  }

  /**
   * `s.split(p)[1]`: the piece that starts right after the first occurrence
   * of `p` and ends at the next occurrence that begins after it, or at the end.
   */
  function SecondPiece(s: string, p: string): (r: string)
    requires |p| > 0 && Find(s, p).Some?
    ensures var start := Find(s, p).value + |p|;
      && start + |r| <= |s| && s[start..start + |r|] == r
      && (forall j :: start <= j < start + |r| ==> !OccursAt(s, p, j))
      && (start + |r| < |s| ==> OccursAt(s, p, start + |r|))
    ensures forall j :: 0 <= j && j + |p| <= |r| ==> !OccursAt(r, p, j)
  {
    var start := Find(s, p).value + |p|;
    BeforeInSuffix(s, p, start);
    Before(s[start..], p)
  }

  /** `Before` on a suffix, read as positions of the whole text. */
  lemma BeforeInSuffix(s: string, p: string, start: nat)
    requires |p| > 0 && start <= |s|
    ensures var r := Before(s[start..], p);
      && start + |r| <= |s| && s[start..start + |r|] == r
      && (forall j :: start <= j < start + |r| ==> !OccursAt(s, p, j))
      && (start + |r| < |s| ==> OccursAt(s, p, start + |r|))
  {
    var r := Before(s[start..], p);
    forall j | start <= j < start + |r|
      ensures !OccursAt(s, p, j)
    {
      SuffixOccurrence(s, p, start, j - start);
    }
    if start + |r| < |s| {
      SuffixOccurrence(s, p, start, |r|);
    }
    assert s[start..start + |r|] == s[start..][..|r|];
  }

  /** An occurrence in a suffix is an occurrence in the whole text, shifted by where the suffix starts. */
  lemma SuffixOccurrence(s: string, p: string, k: nat, j: nat)
    requires k <= |s|
    ensures OccursAt(s[k..], p, j) <==> OccursAt(s, p, k + j)
  {
    if j + |p| <= |s| - k {
      assert s[k..][j..j + |p|] == s[k + j..k + j + |p|];
    }
  }

  // ---------------------------------------------------------------------
  // Splitting on single spaces (`s.split(' ')`)
  // ---------------------------------------------------------------------

  /** The index of the first space, or the length when there is none. */
  function SpaceIndex(s: string): (i: nat)
    ensures i <= |s|
  {
    if |s| == 0 || s[0] == ' ' then 0 else 1 + SpaceIndex(s[1..])
  }

  /** A space-free word followed by nothing or by a space ends at the first space. */
  lemma {:induction false} SpaceIndexAfterWord(a: string, b: string)
    requires ' ' !in a && (b == [] || b[0] == ' ')
    ensures SpaceIndex(a + b) == |a|
  {
    if |a| == 0 {
      assert a + b == b;
    } else {
      assert a[0] in a;
      assert (a + b)[0] == a[0] && (a + b)[1..] == a[1..] + b;
      assert forall c :: c in a[1..] ==> c in a;
      SpaceIndexAfterWord(a[1..], b);
    }
  }

  /** `s.split(' ')`: the pieces between single spaces, empty pieces included. */
  function Words(s: string): (w: seq<string>)
    ensures |w| >= 1
    decreases |s|
  {
    var i := SpaceIndex(s);
    if i == |s| then [s] else [s[..i]] + Words(s[i + 1..])
  }

  /** A space-free string is one word. */
  lemma WordsSingle(a: string)
    requires ' ' !in a
    ensures Words(a) == [a]
  {
    SpaceIndexAfterWord(a, []);
    assert a + [] == a;
  }

  /** A space-free word is split off at the first space. */
  lemma WordsCons(a: string, b: string)
    requires ' ' !in a
    ensures Words(a + " " + b) == [a] + Words(b)
  {
    var s := a + " " + b;
    assert SpaceIndex(s) == |a| by {
      SpaceIndexAfterWord(a, " " + b);
      assert s == a + (" " + b);
    }
    assert s[..|a|] == a;
    assert s[|a| + 1..] == b;
  }

  lemma SpacedAssoc(a: string, b: string, rest: string)
    ensures a + " " + b + " " + rest == a + " " + (b + " " + rest)
  {
  }

  /** Two space-free words separated by a space. */
  lemma WordsPair(a: string, b: string)
    requires ' ' !in a && ' ' !in b
    ensures Words(a + " " + b) == [a, b]
  {
    WordsCons(a, b);
    WordsSingle(b);
  }

  /** Two space-free words followed by more text. */
  lemma WordsPairThen(a: string, b: string, rest: string)
    requires ' ' !in a && ' ' !in b
    ensures Words(a + " " + b + " " + rest) == [a, b] + Words(rest)
  {
    SpacedAssoc(a, b, rest);
    WordsCons(a, b + " " + rest);
    WordsCons(b, rest);
  }

  // ---------------------------------------------------------------------
  // Decimal numerals (`str(n)` and a strict `int(s)` for n >= 0)
  // ---------------------------------------------------------------------

  predicate IsDigit(c: char) {
    '0' <= c <= '9'
  }

  function DigitChar(d: nat): (c: char)
    requires d < 10
    ensures IsDigit(c) && (c as int) - ('0' as int) == d
  {
    (('0' as int) + d) as char
  }

  /** `str(n)` for a non-negative whole number. */
  function NatToString(n: nat): (s: string)
    ensures |s| >= 1
    ensures forall i :: 0 <= i < |s| ==> IsDigit(s[i])
    ensures |s| > 1 ==> s[0] != '0'
  {
    if n < 10 then [DigitChar(n)] else NatToString(n / 10) + [DigitChar(n % 10)]
  }

  /** The value of a string of decimal digits. */
  function DigitsValue(s: string): nat
    requires forall i :: 0 <= i < |s| ==> IsDigit(s[i])
  {
    if |s| == 0 then 0
    else
      assert IsDigit(s[|s| - 1]);
      10 * DigitsValue(s[..|s| - 1]) + ((s[|s| - 1] as int) - ('0' as int))
  }

  /** A canonical decimal numeral: non-empty, digits only, no leading zero except "0" itself. */
  function ParseNat(s: string): (r: Option<nat>)
    ensures r.Some? ==> |s| >= 1 && forall i :: 0 <= i < |s| ==> IsDigit(s[i])
  {
    if |s| >= 1 && (forall i :: 0 <= i < |s| ==> IsDigit(s[i])) && (|s| == 1 || s[0] != '0')
    then Some(DigitsValue(s))
    else None
  }

  lemma {:induction false} DigitsValueOfNatToString(n: nat)
    ensures DigitsValue(NatToString(n)) == n
  {
    if n >= 10 {
      var s := NatToString(n);
      assert s[..|s| - 1] == NatToString(n / 10);
      DigitsValueOfNatToString(n / 10);
    }
  }

  /** Rendering a number and reading it back gives the number. */
  lemma NatStringRoundTrip(n: nat)
    ensures ParseNat(NatToString(n)) == Some(n)
  {
    DigitsValueOfNatToString(n);
  }

  /** A numeral never contains a space. */
  lemma NatStringHasNoSpace(n: nat)
    ensures ' ' !in NatToString(n)
  {
    var s := NatToString(n);
    forall i | 0 <= i < |s|
      ensures s[i] != ' '
    {
      assert IsDigit(s[i]);
    }
  }
}

=== FILE: wrappers.dfy ===
/** The optional-value datatype used throughout the model for Python's `None`. */
module Wrappers {

  datatype Option<+T> = None | Some(value: T) {

    /** The wrapped value, or `default` when there is none (Python's `x if x is not None else default`). */
    function GetOr(default: T): T {
      match this
      case Some(v) => v
      case None => default
    }
  }
}
